=== FILE: README.md ===
# Transaction-request lifecycle of a peer-to-peer coin exchange

This project models, in Dafny, the core of a small web exchange where users
ask to buy or sell coins and an administrator approves or rejects each request
by hand. The document store becomes an immutable `Store` value: two request
collections (buy and sell), chat metadata and chat messages per request,
notifications, the audit log, the admin list and the site settings. Every
store operation is a pure state transition, and its contract says what
changes and that nothing else does. The pages' rules sit on top as pure
functions of the store and of their inputs:

- the admin console: gate, merged list, pending filter, decision flow, CSV export;
- the chat panel: send guard, message construction, "mine" rule, sender label;
- the shell: auth effect, unread badge, notification click;
- the buy and sell forms;
- the user dashboard.

Effects become parameters:

- the clock (`now`);
- store-generated document ids (`id`, `notifId`, `newId`), with a freshness precondition where the store would have made a fresh id;
- the image host's answer (`UploadResult`);
- whether a chat write reached the store (`delivered`);
- number and date printing (`show`, `isoDate`, `num`).

Modules, one per source file:

| module | file | models |
|---|---|---|
| `Seqs` | seqs.dfy | ordering by a key, top-N (`Newest`), join/split |
| `Types` | types.dfy | the records of `types.ts` |
| `Db` | db.dfy | `services/db.ts` |
| `AdminPage` | admin.dfy | `pages/Admin.tsx` |
| `ChatWindow` | chat_window.dfy | `components/ChatWindow.tsx` |
| `Layout` | layout.dfy | `components/Layout.tsx` |
| `OrderForm` | order_form.dfy | what `pages/Buy.tsx` and `pages/Sell.tsx` share |
| `BuyPage` | buy.dfy | `pages/Buy.tsx` |
| `SellPage` | sell.dfy | `pages/Sell.tsx` |
| `Dashboard` | dashboard.dfy | `pages/Dashboard.tsx` |

Where the code departs from what the exchange evidently intends, the model follows the code:

- The status update does not look at the prior status. An approved request can still be rejected through the store (`Db.ApprovedCanBeRejected`). Only the console's buttons, which exist on pending rows alone, make a decision final (`AdminPage.DecidedRowIsNoLongerOffered`).
- The audit action of a decision is `APPROVE_BUY`/`APPROVE_SELL` whatever the decision was (`Db.AuditTagIgnoresDecision`).
- Updating a missing request, or marking a missing notification read, fails in the store before anything is written. The model returns `Err(NotFound(id))` with the store unchanged.
- The stored total of a request is `amount * price` only for a positive amount. For any other amount it is 0 (`BuyPage.BuyTotalIsSnapshotProduct`).
- A pending status passed to the update is announced with the rejection title (`Dashboard.TitleMatchesBadge`).

## Model

| member | source | states |
|---|---|---|
| Types.StatusTextRoundTrip | types.ts:3-7 | the three stored status strings are distinct and read back to their status |
| Types.ShortId | services/db.ts:144 | the short id is the id's prefix of length min(6, length) |
| Db.CheckIsAdmin | services/db.ts:84-89 | false for the empty email; otherwise true iff some admin entry has exactly that email |
| Db.GetSiteSettings | services/db.ts:32-52 | the stored settings when the read succeeds and they exist, else the defaults (BDT, four methods, 1000, 1000, 0.5) |
| Db.CoinIdFor | services/db.ts:237 | a coin id has the symbol's length, no upper-case ASCII letter, and differs from the symbol only by lower-casing A-Z |
| Db.CoinIdIdempotent | services/db.ts:237 | deriving an id from an id changes nothing |
| Db.CreateTransaction | services/db.ts:92-101 | the record is appended unchanged under the fresh id; a chat placeholder for that id lists the owner and `admin` with `Request created`; other chats and everything else unchanged |
| Db.Listing | services/db.ts:104-119 | a listing is a newest-first permutation of the collection with every record tagged with the queried type |
| Db.GetUserTransactions | services/db.ts:104-110 | exactly the collection's records of that user, tagged, each as often as stored, newest first |
| Db.GetAllTransactions | services/db.ts:113-119 | every record of the collection, tagged, newest first, as a permutation |
| Db.UpdateTransactionStatus | services/db.ts:121-152 | error iff the id is missing, with nothing written; otherwise matching records get the status (and the proof only when the URL is non-empty) and nothing else changes; exactly one unread notification for the owner with the status title and the short id; one `APPROVE_*` audit entry iff an actor email is given |
| Db.NotificationTitle | services/db.ts:138-143 | the approval title for approvals, the rejection title for anything else |
| Db.NotificationMessage | services/db.ts:144 | the message embeds the short id right after `#` |
| Db.ApprovedCanBeRejected | services/db.ts:129-135 | an approved request is rejected by a later update: no prior-status check |
| Db.AuditTagIgnoresDecision | services/db.ts:149-151 | approving and rejecting log the same action type |
| Db.LogAction | services/db.ts:155-164 | exactly one entry is appended, with actor id `admin`; nothing else changes |
| Db.FetchLogs | services/db.ts:166-170 | at most 50 entries, newest first, drawn from the log, and no left-out entry is newer than a returned one |
| Db.NewestLogIsFetched | services/db.ts:155-170 | an entry newer than every other is read back |
| Db.SendMessage | services/db.ts:173-186 | exactly one stamped message is appended to that chat's thread; last message, sender and time are merged into its metadata, and a newly created metadata document holds only those three fields; no other chat document or thread is added, removed or changed |
| Db.ChatSnapshot | services/db.ts:188-198 | the chat's messages, oldest first, as a permutation |
| Db.SentMessageIsDelivered | services/db.ts:173-198 | the snapshot grows by exactly the sent message; other chats' snapshots are unchanged |
| Db.CreateNotification | services/db.ts:201-203 | exactly one notification is appended |
| Db.CreateNotificationKeepsIdsUnique | services/db.ts:201-203 | appending a notification under a fresh id keeps notification ids unique |
| Db.NotificationFeed | services/db.ts:205-217 | min(20, the user's count) of the user's notifications, newest first, none newer left out |
| Db.StatusNotificationReachesFeed | services/db.ts:137-147 | the status update's notification reaches the owner's feed, unread |
| Db.StatusUpdateAppendsNotification | services/db.ts:137-147 | a successful status update's notifications are the old ones followed by exactly its own |
| Db.StatusUpdateKeepsIdsUnique | services/db.ts:137-147 | a status update under a fresh notification id keeps notification ids unique |
| Db.NewestNotificationInFeed | services/db.ts:205-217 | a user's newest notification is always in their feed |
| Db.MarkNotificationRead | services/db.ts:219-221 | error iff no notification has the id; otherwise only the `read` flag of that id's entries is set |
| Db.MarkReadIdempotent | services/db.ts:219-221 | marking read twice equals marking read once |
| Db.MarkReadKeepsIdsUnique | services/db.ts:219-221 | marking read keeps notification ids unique |
| Db.MarkReadFeed | services/db.ts:205-221 | after marking read the feed keeps its members and order, with the flag set |
| AdminPage.MergedRequests | pages/Admin.tsx:38-44 | the console list is a newest-first permutation of both collections' tagged records |
| AdminPage.OpenConsole | pages/Admin.tsx:24-36 | authorised iff a signed-in user with a non-empty email passes the admin check; data is loaded only then |
| AdminPage.PendingOf | pages/Admin.tsx:112 | exactly the pending requests, each as often as given, in the given newest-first order |
| AdminPage.Visible | pages/Admin.tsx:112 | `all` shows the loaded list as is; `pending` exactly the pending ones, each as often as loaded, in the loaded newest-first order |
| AdminPage.ActorEmail | pages/Admin.tsx:61 | the admin's non-empty email when there is one, else exactly `admin` |
| AdminPage.ProofUrl | pages/Admin.tsx:50-53 | an approval with a picked file passes exactly the uploaded URL; anything else passes none |
| AdminPage.Decide | pages/Admin.tsx:47-62 | the alert happens iff the upload failed or the request is gone, with nothing written; otherwise only that request's status changes, and its proof becomes the uploaded URL when an approval uploaded a non-empty one; exactly the owner's unread notification and one audit entry by the actor are appended after the old entries; chats, messages, admins, settings and the other collection are untouched |
| AdminPage.DecideKeepsIdsUnique | pages/Admin.tsx:47-62 | a decision under a fresh notification id keeps notification ids unique |
| AdminPage.HandleAction | pages/Admin.tsx:38-72 | on success the console reloads the merged list and the audit log, forgets the file and keeps its tab and authorisation; on alert nothing changes |
| AdminPage.RejectionIgnoresUpload | pages/Admin.tsx:50-53 | a rejection's outcome does not depend on the upload |
| AdminPage.ClickDecision | pages/Admin.tsx:164-201 | the decision buttons act only on visible pending rows |
| AdminPage.ListedRequestIsFound | pages/Admin.tsx:55-62 | every listed request is found by the update issued with its own type |
| AdminPage.DecidedRowIsNoLongerOffered | pages/Admin.tsx:164 | after a decision the reloaded list offers no further decision on that request |
| AdminPage.CsvCells | pages/Admin.tsx:79-92 | twelve cells: id first, the status string, and an empty admin-proof cell iff no proof |
| AdminPage.CsvColumns | pages/Admin.tsx:79-92 | each of the twelve cells holds its column's field: upper-case type, date, email, coin, amount, total, status, the buy's method or `N/A`, the buy's number or the sell's wallet, the user's proof, the admin's proof or the empty string |
| AdminPage.ExportCsv | pages/Admin.tsx:74-97 | no file iff the list is empty |
| AdminPage.ConsoleCsv | pages/Admin.tsx:74-97 | the export button writes nothing iff no request is loaded |
| AdminPage.ExportIgnoresFilter | pages/Admin.tsx:74-97 | the file has one row per loaded request, in the loaded order, also on the pending tab; the tab never changes the file |
| AdminPage.ExportRoundTrip | pages/Admin.tsx:77-97 | the lines are the header and one row per request in order, and each row reads back to that request's cells, when no cell holds a comma or newline |
| AdminPage.CommaInCellSplitsRow | pages/Admin.tsx:96 | a comma inside a cell splits it into two fields: cells are not escaped |
| ChatWindow.TrimEmptyIffBlank | components/ChatWindow.tsx:32 | the trimmed draft is empty iff every character is JavaScript whitespace |
| ChatWindow.OutgoingFor | components/ChatWindow.tsx:36-42 | sender `admin` in the admin view and the uid otherwise; the admin flag equals the view; the email falls back to `Anonymous`; the text is the untrimmed draft |
| ChatWindow.HandleSend | components/ChatWindow.tsx:30-49 | a blank draft, no user or a failed write leaves store and draft unchanged; otherwise one message is appended and the draft is cleared |
| ChatWindow.SendButtonMatchesGuard | components/ChatWindow.tsx:104 | with no send in flight the button is enabled iff the draft is not blank; a click it would refuse changes nothing, and an enabled one sends the message |
| ChatWindow.OwnMessageIsMine | components/ChatWindow.tsx:68 | a sender sees their own message as theirs in the view it came from |
| ChatWindow.AdminMessagesAreShared | components/ChatWindow.tsx:68 | every admin view claims every admin message; no user view does |
| ChatWindow.UserMessageIsPrivate | components/ChatWindow.tsx:68 | a user's message is claimed by its sender only |
| ChatWindow.SenderLabel | components/ChatWindow.tsx:82 | `Support Agent` for admins, else the email's prefix up to the first `@` |
| ChatWindow.AnonymousLabel | components/ChatWindow.tsx:39-82 | a user without an email is labelled `Anonymous` |
| Layout.OnAuthChange | components/Layout.tsx:22-39 | with a signed-in email: the admin flag is the admin check and the feed the user's feed; otherwise no admin flag and an empty feed |
| Layout.UnreadCountIsNumberUnread | components/Layout.tsx:46 | the badge number is the number of feed positions holding an unread notification |
| Layout.ShowBadge | components/Layout.tsx:113-117 | the badge shows iff some entry is unread |
| Layout.MarkLowersUnread | components/Layout.tsx:46-49 | marking an id read lowers the unread count by the unread entries with that id |
| Layout.HandleNotifClick | components/Layout.tsx:48-51 | a read notification only closes the panel; an unread one is marked read first; a failed update leaves the panel as it was |
| Layout.ClickLowersBadgeByOne | components/Layout.tsx:46-51 | with unique ids, clicking an unread feed entry lowers the badge by exactly one |
| OrderForm.SelectCoin | pages/Buy.tsx:40 | the first catalog coin with the id, none iff no coin has it |
| OrderForm.InitialSelection | pages/Buy.tsx:33-35 | without navigation state the first catalog coin is selected; with it, a coin is selected iff its id is still in the catalog |
| OrderForm.TotalMatchesSnapshot | pages/Buy.tsx:42-48 | the total is amount times the snapshot price for a positive amount, else 0 |
| OrderForm.Place | services/db.ts:92-164 | a submission appends the request to its own collection and one audit entry, and opens the chat; every other chat, the other collection, notifications, messages, admins and settings are unchanged |
| BuyPage.SubmitBuy | pages/Buy.tsx:56-92 | checks stop in order at no user, no screenshot, no coin, failed upload, each leaving the store alone; success appends one pending buy record with the owner's uid and email, the submission time, the amount, the coin and price snapshot, the uploaded URL and the payment fields, opens its chat and adds one `CREATE_BUY` entry; other chats, notifications, messages, admins and settings are untouched |
| BuyPage.BuyTotalIsSnapshotProduct | pages/Buy.tsx:42-82 | a created buy's total is amount times its snapshot price, or 0 for a non-positive amount |
| BuyPage.WorkedExample | pages/Buy.tsx:42-82 | 0.01 at 64230.50 is stored with total 642.305 |
| SellPage.StoredProof | pages/Sell.tsx:55-69 | the uploaded URL when a file was given and the URL is non-empty; `N/A` without a file or for an empty URL; anything other than `N/A` is the uploaded URL |
| SellPage.SubmitSell | pages/Sell.tsx:46-83 | no user or no coin leaves the store alone; the upload is tried only with a file; success appends one pending sell record with the owner's uid and email, the submission time, the amount, the wallet, snapshot and total, opens its chat and adds one `CREATE_SELL` entry; other chats, notifications, messages, admins and settings are untouched |
| SellPage.NoFileNoUpload | pages/Sell.tsx:55-58 | without a file the outcome does not depend on the upload |
| Dashboard.BadgeIdentifiesStatus | pages/Dashboard.tsx:30-44 | badge text and colour each identify the status |
| Dashboard.TitleMatchesBadge | pages/Dashboard.tsx:38-44 | a decision's notification title names the dashboard's label for it |
| Dashboard.LoadDashboard | pages/Dashboard.tsx:18-28 | nothing without a user; otherwise exactly the user's requests of the tab's type, tagged, each as often as stored, newest first |
| Dashboard.DetailHeader | pages/Dashboard.tsx:116 | the header is the prefix followed by the id's first min(6, length) characters |
| Dashboard.HeaderPrefixSpelling | pages/Dashboard.tsx:116 | the header prefix is the page's eleven code points, with the precomposed letter U+09DF, and the notification title begins with the same word |
| Dashboard.SubmittedBuyIsOnDashboard | pages/Dashboard.tsx:18-26 | a buy just submitted shows on its owner's buy tab as pending, without an admin proof |
| Dashboard.DecisionIsOnDashboard | pages/Dashboard.tsx:38-155 | after a decision the owner's rows show the decided status, and the proof link when a non-empty proof was uploaded |

## Left out

- The clock is read twice by `sendMessage`, once for the message and once for the chat metadata. The model reads it once: both carry the same `now`.
- Network and store failures other than a missing document: every store write succeeds. A `sendMessage` that fails after its first write, and leaves the message without updated metadata, is not modelled. `delivered` models only success or nothing.
- Live subscriptions: their delivery timing and cancellation, the interleaving of awaits, concurrent admins, and the `processingId` double-click guard. Snapshots are modelled as functions of the store.
- Tie-break order among equal timestamps. The store decides it, so contracts never fix it.
- Image upload. It is the `UploadResult` parameter, and every failure carries the helper's single message.
- Floating-point arithmetic, `NaN` amounts and number or date printing. Amounts and prices are `real`; printing is a function parameter.
- Db.CreateTransaction: the returned id is the `id` parameter, under a freshness precondition, not something the function returns.
- The optional `note` field of a request, the `link` field of a notification, the document ids of messages and of audit entries (which `fetchLogs` returns alongside each entry), and the `available`/`createdAt`/`updatedAt` fields of coins are not carried.
- A missing email (`auth.currentUser.email!`) is stored as the empty string rather than as `null`.
- Db.CoinIdFor: lower-cases ASCII letters only, not the whole of Unicode as JavaScript `toLowerCase` does.
- The coin catalogue query, user profiles, authentication flows, static pages and routing, CSV download mechanics, styling and scrolling.
- The `verify` effect's loading flag and the redirect of an unauthorised admin are not modelled. Only which data gets loaded is modelled.
- Buy and sell totals: the form recomputes the total in an effect. The model uses the recomputed value at submission time.

=== FILE: admin.dfy ===
/** The admin console: the gate that decides whether data is loaded, the
    merged newest-first list of buy and sell requests, the pending filter, the
    approve/reject flow with its optional payout proof, and the CSV export. */
module AdminPage {
  import opened Types
  import opened Seqs
  import opened Db

  datatype ConsoleFilter = AllRequests | PendingOnly

  /** The console's state: whether the admin check passed, the loaded
      requests and logs, the filter tab and the picked payout proof. */
  datatype Console = Console(
    authorized: bool,
    transactions: seq<Request>,
    logs: seq<AuditLog>,
    filter: ConsoleFilter,
    proofFile: Option<ProofFile>)

  /** `loadData`'s list: all buy requests and all sell requests together,
      newest first. */
  function MergedRequests(s: Store): (r: seq<Request>)
    ensures SortedDesc(r, RequestTime)
    ensures multiset(r) == multiset(GetAllTransactions(s, Buy) + GetAllTransactions(s, Sell))
    ensures |r| == |s.buyRequests| + |s.sellRequests|
    ensures forall x :: x in r <==>
      (exists y :: y in s.buyRequests && x == TagAs(y, Buy)) ||
      (exists y :: y in s.sellRequests && x == TagAs(y, Sell))
  {
    var buys, sells := GetAllTransactions(s, Buy), GetAllTransactions(s, Sell);
    var both := buys + sells;
    var r := SortDesc(both, RequestTime);
    assert forall x :: x in r <==> x in buys || x in sells by {
      SameElements(r, both);
    }
    r
  }

  function LoadData(s: Store, c: Console): Console
  {
    c.(transactions := MergedRequests(s), logs := FetchLogs(s))
  }

  /** The page's first effect: data is loaded only when a signed-in user
      with an email passes the admin check. */
  function OpenConsole(s: Store, user: Option<User>): (c: Console)
    ensures c.authorized <==> user.Some? && Truthy(user.value.email) && CheckIsAdmin(s.admins, user.value.email.value)
    ensures c.authorized ==> c.transactions == MergedRequests(s) && c.logs == FetchLogs(s)
    ensures !c.authorized ==> c.transactions == [] && c.logs == []
    ensures c.filter == PendingOnly && c.proofFile == None
  {
    var closed := Console(false, [], [], PendingOnly, None);
    if user.Some? && Truthy(user.value.email) && CheckIsAdmin(s.admins, user.value.email.value) then
      LoadData(s, closed.(authorized := true))
    else closed
  }

  function PendingOf(txs: seq<Request>): (r: seq<Request>)
    ensures |r| <= |txs|
    ensures forall x :: x in r <==> x in txs && x.data.status == Pending
    ensures forall x :: multiset(r)[x] == if x.data.status == Pending then multiset(txs)[x] else 0
    ensures SortedDesc(txs, RequestTime) ==> SortedDesc(r, RequestTime)
  {
    if |txs| == 0 then []
    else
      var tail := PendingOf(txs[1..]);
      PendingStep(txs, tail);
      KeepOrDrop(txs[0], tail)
  }

  /** One step of the filter: the head in front of the tail's result when
      it is pending, the tail's result alone otherwise. */
  function KeepOrDrop(h: Request, tail: seq<Request>): seq<Request>
  {
    if h.data.status == Pending then [h] + tail else tail
  }

  /** The filter's properties carry over from the tail to the whole list. */
  lemma {:induction false} PendingStep(txs: seq<Request>, tail: seq<Request>)
    requires |txs| > 0
    requires |tail| <= |txs[1..]|
    requires forall x :: multiset(tail)[x] == if x.data.status == Pending then multiset(txs[1..])[x] else 0
    requires SortedDesc(txs[1..], RequestTime) ==> SortedDesc(tail, RequestTime)
    ensures var r := KeepOrDrop(txs[0], tail);
      |r| <= |txs| &&
      (forall x :: x in r <==> x in txs && x.data.status == Pending) &&
      (forall x :: multiset(r)[x] == if x.data.status == Pending then multiset(txs)[x] else 0) &&
      (SortedDesc(txs, RequestTime) ==> SortedDesc(r, RequestTime))
  {
    var r := KeepOrDrop(txs[0], tail);
    PendingStepCount(txs, tail);
    PendingMembers(txs, r);
    assert multiset(tail) <= multiset(txs[1..]) by {
      PendingMembers(txs[1..], tail);
    }
    if txs[0].data.status == Pending {
      KeepHeadSorted(txs, tail);
    } else {
      assert SortedDesc(txs, RequestTime) ==> SortedDesc(txs[1..], RequestTime);
    }
  }

  /** The head is counted once more exactly when it is pending. */
  lemma {:induction false} PendingStepCount(txs: seq<Request>, tail: seq<Request>)
    requires |txs| > 0
    requires forall x :: multiset(tail)[x] == if x.data.status == Pending then multiset(txs[1..])[x] else 0
    ensures forall x :: multiset(KeepOrDrop(txs[0], tail))[x] == if x.data.status == Pending then multiset(txs)[x] else 0
  {
    var h := txs[0];
    assert txs == [h] + txs[1..];
    assert multiset(txs) == multiset{h} + multiset(txs[1..]);
    if h.data.status == Pending {
      assert multiset([h] + tail) == multiset{h} + multiset(tail);
    }
  }

  /** Counting the pending requests once each fixes which requests appear,
      and makes the result a sub-multiset of the input. */
  lemma {:induction false} PendingMembers(txs: seq<Request>, r: seq<Request>)
    requires forall x :: multiset(r)[x] == if x.data.status == Pending then multiset(txs)[x] else 0
    ensures forall x :: x in r <==> x in txs && x.data.status == Pending
    ensures multiset(r) <= multiset(txs)
  {
    forall x
      ensures x in r <==> x in txs && x.data.status == Pending
    {
      assert x in r <==> x in multiset(r);
      assert x in txs <==> x in multiset(txs);
    }
  }

  /** Keeping the head of a sorted list in front of a sorted sub-multiset of
      its tail keeps it sorted. */
  lemma {:induction false} KeepHeadSorted(txs: seq<Request>, tail: seq<Request>)
    requires |txs| > 0
    requires multiset(tail) <= multiset(txs[1..])
    requires SortedDesc(txs[1..], RequestTime) ==> SortedDesc(tail, RequestTime)
    ensures SortedDesc(txs, RequestTime) ==> SortedDesc([txs[0]] + tail, RequestTime)
  {
    if SortedDesc(txs, RequestTime) {
      assert SortedDesc(txs[1..], RequestTime);
      assert AllAtMost(txs[1..], RequestTime, RequestTime(txs[0]));
      AllAtMostOfMultiset(tail, txs[1..], RequestTime, RequestTime(txs[0]));
      ConsSorted(txs[0], tail, RequestTime);
    }
  }

  /** The rows on screen: every loaded request, or exactly the pending ones,
      each as often as loaded and in the loaded newest-first order. */
  function Visible(c: Console): (r: seq<Request>)
    ensures c.filter == AllRequests ==> r == c.transactions
    ensures c.filter == PendingOnly ==> forall x :: x in r <==> x in c.transactions && x.data.status == Pending
    ensures c.filter == PendingOnly ==>
      forall x :: multiset(r)[x] == if x.data.status == Pending then multiset(c.transactions)[x] else 0
    ensures SortedDesc(c.transactions, RequestTime) ==> SortedDesc(r, RequestTime)
  {
    match c.filter
    case AllRequests => c.transactions
    case PendingOnly => PendingOf(c.transactions)
  }

  /** Approve and reject buttons exist only on pending rows. */
  predicate OffersDecision(tx: Request)
  {
    tx.data.status == Pending
  }

  /** A payout proof is uploaded only for an approval with a picked file. */
  predicate UploadsProof(status: Status, file: Option<ProofFile>)
  {
    status == Approved && file.Some?
  }

  /** The actor recorded for a decision: the admin's email, or `admin`. */
  function ActorEmail(user: Option<User>): (r: string)
    ensures r != ""
    ensures user.Some? && Truthy(user.value.email) ==> r == user.value.email.value
    ensures !(user.Some? && Truthy(user.value.email)) ==> r == "admin"
  {
    if user.Some? then OrElse(user.value.email, "admin") else "admin"
  }

  /** The payout proof URL handed to the status update: the uploaded one,
      or none when no proof is uploaded. */
  function ProofUrl(status: Status, file: Option<ProofFile>, upload: UploadResult): (r: Option<string>)
    ensures r.Some? ==> UploadsProof(status, file)
    ensures UploadsProof(status, file) && upload.Uploaded? ==> r == Some(upload.url)
    ensures !UploadsProof(status, file) ==> r == None
  {
    if UploadsProof(status, file) && upload.Uploaded? then Some(upload.url) else None
  }

  /** The records after a decision on `tx`: only that request's status
      changes, and its proof URL becomes the uploaded one when an approval
      uploaded a file under a non-empty URL. */
  predicate DecidedRecords(
    s: Store, after: Store, file: Option<ProofFile>, tx: Request, status: Status, upload: UploadResult)
  {
    var k := tx.data.kind;
    var before, now_ := s.Requests(k), after.Requests(k);
    |now_| == |before| &&
    after.Requests(Other(k)) == s.Requests(Other(k)) &&
    forall i :: 0 <= i < |before| ==>
      now_[i].id == before[i].id &&
      (before[i].id != tx.id ==> now_[i] == before[i]) &&
      (before[i].id == tx.id ==>
        now_[i].data.status == status &&
        now_[i].data.(status := before[i].data.status, adminScreenshotURL := before[i].data.adminScreenshotURL) == before[i].data &&
        now_[i].data.adminScreenshotURL ==
          (if UploadsProof(status, file) && upload.Uploaded? && upload.url != "" then Some(upload.url) else before[i].data.adminScreenshotURL))
  }

  /** Everything else a decision writes: the owner's notification appended,
      the audit entry appended, and the other stores untouched. */
  predicate DecidedEffects(
    s: Store, after: Store, tx: Request, status: Status, user: Option<User>, now: int, notifId: string)
  {
    |after.notifications| == |s.notifications| + 1 &&
    after.notifications[..|s.notifications|] == s.notifications &&
    after.notifications[|s.notifications|] ==
      AppNotification(notifId, tx.data.userId, NotificationTitle(status), NotificationMessage(tx.data.kind, tx.id, status), false, now) &&
    after.logs == s.logs +
      [AuditLog("admin", ActorEmail(user), UpdateActionType(tx.data.kind), "Updated tx " + tx.id + " to " + StatusText(status), now)] &&
    after.chats == s.chats && after.messages == s.messages && after.admins == s.admins && after.settings == s.settings
  }

  /** The store side of `handleAction`: uploads the proof when approving with
      a file, then issues the status update against the request's own
      collection and owner, with the admin's email (or `admin`) as actor.
      `None` is the alert: a failed upload or a request the store no longer
      has, and in both cases nothing was written. */
  function Decide(
    s: Store, file: Option<ProofFile>, tx: Request, status: Status, upload: UploadResult,
    user: Option<User>, now: int, notifId: string): (r: Option<Store>)
    requires !HasNotification(s.notifications, notifId)
    ensures r.None? <==>
      (UploadsProof(status, file) && upload.UploadFailed?) || !HasRequest(s.Requests(tx.data.kind), tx.id)
    ensures r.Some? ==> DecidedRecords(s, r.value, file, tx, status, upload)
    ensures r.Some? ==> DecidedEffects(s, r.value, tx, status, user, now, notifId)
  {
    if UploadsProof(status, file) && upload.UploadFailed? then None
    else
      var u := UpdateTransactionStatus(s, tx.id, tx.data.kind, status, tx.data.userId,
        ProofUrl(status, file, upload), Some(ActorEmail(user)), now, notifId);
      if u.Ok? then
        DecisionRecords(s, file, tx, status, upload, user, now, notifId);
        DecisionEffects(s, file, tx, status, upload, user, now, notifId);
        Some(u.value)
      else None
  }

  /** The status update a decision issues changes the records as
      `DecidedRecords` says. */
  lemma {:induction false} DecisionRecords(
    s: Store, file: Option<ProofFile>, tx: Request, status: Status, upload: UploadResult,
    user: Option<User>, now: int, notifId: string)
    requires !HasNotification(s.notifications, notifId)
    requires !(UploadsProof(status, file) && upload.UploadFailed?)
    ensures var u := UpdateTransactionStatus(s, tx.id, tx.data.kind, status, tx.data.userId,
        ProofUrl(status, file, upload), Some(ActorEmail(user)), now, notifId);
      u.Ok? ==> DecidedRecords(s, u.value, file, tx, status, upload)
  {
    var url := ProofUrl(status, file, upload);
    assert Truthy(url) <==> UploadsProof(status, file) && upload.url != "";
    assert Truthy(url) ==> url == Some(upload.url);
  }

  /** The status update a decision issues writes what `DecidedEffects`
      says. */
  lemma {:induction false} DecisionEffects(
    s: Store, file: Option<ProofFile>, tx: Request, status: Status, upload: UploadResult,
    user: Option<User>, now: int, notifId: string)
    requires !HasNotification(s.notifications, notifId)
    ensures var u := UpdateTransactionStatus(s, tx.id, tx.data.kind, status, tx.data.userId,
        ProofUrl(status, file, upload), Some(ActorEmail(user)), now, notifId);
      u.Ok? ==> DecidedEffects(s, u.value, tx, status, user, now, notifId)
  {
  }

  /** A decision under a fresh notification id keeps notification ids
      unique. */
  lemma {:induction false} DecideKeepsIdsUnique(
    s: Store, file: Option<ProofFile>, tx: Request, status: Status, upload: UploadResult,
    user: Option<User>, now: int, notifId: string)
    requires UniqueIds(s.notifications)
    requires !HasNotification(s.notifications, notifId)
    ensures var r := Decide(s, file, tx, status, upload, user, now, notifId);
      r.Some? ==> UniqueIds(r.value.notifications)
  {
    StatusUpdateKeepsIdsUnique(s, tx.id, tx.data.kind, status, tx.data.userId,
      ProofUrl(status, file, upload), Some(ActorEmail(user)), now, notifId);
  }

  datatype ActionResult = ActionResult(store: Store, console: Console, alerted: bool)

  /** `handleAction` on the page: after a successful decision the console
      reloads and forgets the picked file; after an alert nothing changes. */
  function HandleAction(
    s: Store, c: Console, tx: Request, status: Status, upload: UploadResult,
    user: Option<User>, now: int, notifId: string): (r: ActionResult)
    requires !HasNotification(s.notifications, notifId)
    ensures var d := Decide(s, c.proofFile, tx, status, upload, user, now, notifId);
      (r.alerted <==> d.None?) &&
      (d.None? ==> r.store == s && r.console == c) &&
      (d.Some? ==> r.store == d.value && r.console.transactions == MergedRequests(d.value) && r.console.proofFile == None) &&
      (d.Some? ==> r.console.logs == FetchLogs(d.value) && r.console.filter == c.filter && r.console.authorized == c.authorized)
  {
    match Decide(s, c.proofFile, tx, status, upload, user, now, notifId)
    case None => ActionResult(s, c, true)
    case Some(s') => ActionResult(s', LoadData(s', c).(proofFile := None), false)
  }

  /** A rejection never needs the upload: its outcome is the same whatever
      the image host would have answered. */
  lemma {:induction false} RejectionIgnoresUpload(
    s: Store, c: Console, tx: Request, a: UploadResult, b: UploadResult,
    user: Option<User>, now: int, notifId: string)
    requires !HasNotification(s.notifications, notifId)
    ensures HandleAction(s, c, tx, Rejected, a, user, now, notifId) == HandleAction(s, c, tx, Rejected, b, user, now, notifId)
  {
    assert ProofUrl(Rejected, c.proofFile, a) == None == ProofUrl(Rejected, c.proofFile, b);
    assert Decide(s, c.proofFile, tx, Rejected, a, user, now, notifId) == Decide(s, c.proofFile, tx, Rejected, b, user, now, notifId);
  }

  /** Clicking approve or reject: the buttons are only rendered on pending
      rows that are on screen, so nothing happens for any other row. */
  function ClickDecision(
    s: Store, c: Console, tx: Request, status: Status, upload: UploadResult,
    user: Option<User>, now: int, notifId: string): (r: ActionResult)
    requires !HasNotification(s.notifications, notifId)
    ensures !(tx in Visible(c) && OffersDecision(tx)) ==> r == ActionResult(s, c, false)
    ensures tx in Visible(c) && OffersDecision(tx) ==> r == HandleAction(s, c, tx, status, upload, user, now, notifId)
  {
    if tx in Visible(c) && OffersDecision(tx) then HandleAction(s, c, tx, status, upload, user, now, notifId)
    else ActionResult(s, c, false)
  }

  lemma {:induction false} MergedFromListings(s: Store, x: Request)
    requires x in MergedRequests(s)
    ensures x in GetAllTransactions(s, Buy) || x in GetAllTransactions(s, Sell)
  {
    assert x in multiset(MergedRequests(s));
  }

  lemma {:induction false} ListingSource(s: Store, k: TxType, x: Request) returns (i: nat)
    requires x in GetAllTransactions(s, k)
    ensures i < |s.Requests(k)| && x == TagAs(s.Requests(k)[i], k)
  {
    var y :| y in s.Requests(k) && x == TagAs(y, k);
    var j :| 0 <= j < |s.Requests(k)| && s.Requests(k)[j] == y;
    i := j;
  }

  /** The store position a listed request was read from: the row's type
      names the collection the row came from. */
  lemma {:induction false} ListedRequestHasSource(s: Store, x: Request) returns (i: nat)
    requires x in MergedRequests(s)
    ensures i < |s.Requests(x.data.kind)| && x == TagAs(s.Requests(x.data.kind)[i], x.data.kind)
  {
    MergedFromListings(s, x);
    var k := if x in GetAllTransactions(s, Buy) then Buy else Sell;
    i := ListingSource(s, k, x);
  }

  /** Every request in the console's list is found by the status update it
      would issue. */
  lemma {:induction false} ListedRequestIsFound(s: Store, tx: Request)
    requires tx in MergedRequests(s)
    ensures HasRequest(s.Requests(tx.data.kind), tx.id)
  {
    var i := ListedRequestHasSource(s, tx);
    assert s.Requests(tx.data.kind)[i].id == tx.id;
  }

  /** After a decision succeeds, the reloaded list offers no further decision
      on that request: within the console the resolution is final, although
      the store itself would accept another update. */
  lemma {:induction false} DecidedRowIsNoLongerOffered(
    s: Store, file: Option<ProofFile>, tx: Request, status: Status, upload: UploadResult,
    user: Option<User>, now: int, notifId: string)
    requires status != Pending
    requires !HasNotification(s.notifications, notifId)
    requires Decide(s, file, tx, status, upload, user, now, notifId).Some?
    ensures var after := Decide(s, file, tx, status, upload, user, now, notifId).value;
      forall x :: x in MergedRequests(after) && x.id == tx.id && x.data.kind == tx.data.kind ==> !OffersDecision(x)
  {
    var after := Decide(s, file, tx, status, upload, user, now, notifId).value;
    forall x | x in MergedRequests(after) && x.id == tx.id && x.data.kind == tx.data.kind
      ensures !OffersDecision(x)
    {
      var i := ListedRequestHasSource(after, x);
      assert s.Requests(tx.data.kind)[i].id == tx.id;
    }
  }

  // ---------------------------------------------------------------------
  // CSV export

  const CsvHeaders: seq<string> := [
    "ID", "Type", "Date", "User Email", "Coin", "Amount", "Total Price ($)",
    "Status", "Payment Method", "Wallet/Number", "User Proof", "Admin Proof"]

  /** Column rule: the payment method of a buy, `N/A` otherwise. */
  function PaymentMethodCell(d: Details): (r: string)
    ensures d.BuyFields? ==> r == d.paymentMethod
    ensures d.SellFields? ==> r == "N/A"
  {
    match d
    case BuyFields(m, _) => m
    case SellFields(_) => "N/A"
  }

  /** Column rule: the payment number when present, else the wallet. */
  function NumberOrWalletCell(d: Details): (r: string)
    ensures d.BuyFields? ==> r == d.paymentNumber
    ensures d.SellFields? ==> r == d.walletAddress
  {
    match d
    case BuyFields(_, n) => n
    case SellFields(w) => w
  }

  /** The twelve cells of a request's row. Date and number rendering
      (`toISOString`, JavaScript number printing) are parameters. */
  function CsvCells(t: Request, isoDate: int -> string, num: real -> string): (r: seq<string>)
    ensures |r| == |CsvHeaders|
    ensures r[0] == t.id && r[7] == StatusText(t.data.status)
    ensures r[11] == "" <==> !Truthy(t.data.adminScreenshotURL)
  {
    [t.id, TypeTextUpper(t.data.kind), isoDate(t.data.timestamp), t.data.userEmail, t.data.coinSymbol,
     num(t.data.amount), num(t.data.totalPrice), StatusText(t.data.status),
     PaymentMethodCell(t.data.details), NumberOrWalletCell(t.data.details),
     t.data.userScreenshotURL, OrElse(t.data.adminScreenshotURL, "")]
  }

  /** The column rules cell by cell: upper-case type, date, email, coin,
      amount, total, status, the buy's payment method or `N/A`, the buy's
      number or the sell's wallet, the user's proof, and the admin's proof
      or the empty string. */
  lemma {:induction false} CsvColumns(t: Request, isoDate: int -> string, num: real -> string)
    ensures var r := CsvCells(t, isoDate, num);
      r[0] == t.id && r[1] == TypeTextUpper(t.data.kind) && r[2] == isoDate(t.data.timestamp) &&
      r[3] == t.data.userEmail && r[4] == t.data.coinSymbol &&
      r[5] == num(t.data.amount) && r[6] == num(t.data.totalPrice) &&
      r[7] == StatusText(t.data.status) &&
      r[8] == (if t.data.details.BuyFields? then t.data.details.paymentMethod else "N/A") &&
      r[9] == (if t.data.details.BuyFields? then t.data.details.paymentNumber else t.data.details.walletAddress) &&
      r[10] == t.data.userScreenshotURL &&
      (Truthy(t.data.adminScreenshotURL) ==> r[11] == t.data.adminScreenshotURL.value) &&
      (!Truthy(t.data.adminScreenshotURL) ==> r[11] == "")
  {
  }

  /** A cell wrapped verbatim in double quotes: embedded quotes are not
      doubled. */
  function Quote(cell: string): (r: string)
    ensures |r| == |cell| + 2 && r[0] == '"' && r[|r| - 1] == '"' && r[1..|r| - 1] == cell
  {
    "\"" + cell + "\""
  }

  function Unquote(field: string): string
  {
    if |field| >= 2 && field[0] == '"' && field[|field| - 1] == '"' then field[1..|field| - 1] else field
  }

  function QuoteAll(cells: seq<string>): (r: seq<string>)
    ensures |r| == |cells|
    ensures forall i :: 0 <= i < |cells| ==> r[i] == Quote(cells[i])
  {
    if |cells| == 0 then [] else [Quote(cells[0])] + QuoteAll(cells[1..])
  }

  function UnquoteAll(fields: seq<string>): (r: seq<string>)
    ensures |r| == |fields|
    ensures forall i :: 0 <= i < |fields| ==> r[i] == Unquote(fields[i])
  {
    if |fields| == 0 then [] else [Unquote(fields[0])] + UnquoteAll(fields[1..])
  }

  function CsvRow(t: Request, isoDate: int -> string, num: real -> string): string
  {
    Join(QuoteAll(CsvCells(t, isoDate, num)), ',')
  }

  function CsvRows(txs: seq<Request>, isoDate: int -> string, num: real -> string): (r: seq<string>)
    ensures |r| == |txs|
    ensures forall i :: 0 <= i < |txs| ==> r[i] == CsvRow(txs[i], isoDate, num)
  {
    if |txs| == 0 then [] else [CsvRow(txs[0], isoDate, num)] + CsvRows(txs[1..], isoDate, num)
  }

  /** `exportCSV`: nothing for an empty list; otherwise the header line and
      one line per request, joined by newlines. */
  function ExportCsv(txs: seq<Request>, isoDate: int -> string, num: real -> string): (r: Option<string>)
    ensures r.None? <==> |txs| == 0
  {
    if |txs| == 0 then None
    else Some(Join([Join(CsvHeaders, ',')] + CsvRows(txs, isoDate, num), '\n'))
  }

  /** The export button: it writes the whole loaded list, whichever filter
      tab is on screen. */
  function ConsoleCsv(c: Console, isoDate: int -> string, num: real -> string): (r: Option<string>)
    ensures r.None? <==> |c.transactions| == 0
  {
    ExportCsv(c.transactions, isoDate, num)
  }

  /** The exported file holds one row per loaded request, in the loaded
      order, also on the pending tab; the tab never changes the file. */
  lemma {:induction false} ExportIgnoresFilter(c: Console, isoDate: int -> string, num: real -> string)
    requires |c.transactions| >= 1
    requires forall i, j :: 0 <= i < |c.transactions| && 0 <= j < |CsvHeaders| ==> PlainCell(CsvCells(c.transactions[i], isoDate, num)[j])
    ensures var lines := Split(ConsoleCsv(c, isoDate, num).value, '\n');
      |lines| == |c.transactions| + 1 &&
      forall i :: 0 <= i < |c.transactions| ==> UnquoteAll(Split(lines[i + 1], ',')) == CsvCells(c.transactions[i], isoDate, num)
    ensures ConsoleCsv(c.(filter := AllRequests), isoDate, num) == ConsoleCsv(c.(filter := PendingOnly), isoDate, num)
  {
    ExportRoundTrip(c.transactions, isoDate, num);
  }

  /** A cell that neither separator can cut. */
  predicate PlainCell(cell: string)
  {
    ',' !in cell && '\n' !in cell
  }

  lemma {:induction false} JoinAvoids(parts: seq<string>, sep: char, c: char)
    requires c != sep
    requires forall i :: 0 <= i < |parts| ==> c !in parts[i]
    ensures c !in Join(parts, sep)
  {
    if |parts| > 1 {
      JoinAvoids(parts[1..], sep, c);
    }
  }

  lemma {:induction false} QuotePlain(cell: string)
    requires PlainCell(cell)
    ensures PlainCell(Quote(cell))
  {
    var q := Quote(cell);
    forall k | 0 <= k < |q|
      ensures q[k] != ',' && q[k] != '\n'
    {
      if 0 < k < |q| - 1 {
        assert q[k] == cell[k - 1];
      }
    }
  }

  /** Reading a row back: splitting at commas and stripping the quotes gives
      the cells, provided no cell holds a comma or a newline. */
  lemma {:induction false} RowRoundTrip(cells: seq<string>)
    requires |cells| >= 1
    requires forall i :: 0 <= i < |cells| ==> PlainCell(cells[i])
    ensures '\n' !in Join(QuoteAll(cells), ',')
    ensures UnquoteAll(Split(Join(QuoteAll(cells), ','), ',')) == cells
  {
    var quoted := QuoteAll(cells);
    forall i | 0 <= i < |quoted|
      ensures ',' !in quoted[i] && '\n' !in quoted[i]
    {
      QuotePlain(cells[i]);
    }
    JoinAvoids(quoted, ',', '\n');
    SplitJoin(quoted, ',');
  }

  lemma {:induction false} HeadersArePlain()
    ensures forall j :: 0 <= j < |CsvHeaders| ==> PlainCell(CsvHeaders[j])
  {
  }

  /** Every row is one line that reads back as its request's cells. */
  lemma {:induction false} RowsRoundTrip(txs: seq<Request>, isoDate: int -> string, num: real -> string)
    requires forall i, j :: 0 <= i < |txs| && 0 <= j < |CsvHeaders| ==> PlainCell(CsvCells(txs[i], isoDate, num)[j])
    ensures var rows := CsvRows(txs, isoDate, num);
      forall i :: 0 <= i < |txs| ==>
        '\n' !in rows[i] && UnquoteAll(Split(rows[i], ',')) == CsvCells(txs[i], isoDate, num)
  {
    var rows := CsvRows(txs, isoDate, num);
    forall i | 0 <= i < |txs|
      ensures '\n' !in rows[i] && UnquoteAll(Split(rows[i], ',')) == CsvCells(txs[i], isoDate, num)
    {
      RowRoundTrip(CsvCells(txs[i], isoDate, num));
    }
  }

  /** Reading the export back: its lines are the header and one row per
      request in list order, and each row's fields unquote to that request's
      cells, whenever no cell holds a comma or a newline. */
  lemma {:induction false} ExportRoundTrip(txs: seq<Request>, isoDate: int -> string, num: real -> string)
    requires |txs| >= 1
    requires forall i, j :: 0 <= i < |txs| && 0 <= j < |CsvHeaders| ==> PlainCell(CsvCells(txs[i], isoDate, num)[j])
    ensures var lines := Split(ExportCsv(txs, isoDate, num).value, '\n');
      |lines| == |txs| + 1 &&
      lines[0] == Join(CsvHeaders, ',') &&
      forall i :: 0 <= i < |txs| ==> UnquoteAll(Split(lines[i + 1], ',')) == CsvCells(txs[i], isoDate, num)
  {
    var rows := CsvRows(txs, isoDate, num);
    HeadersArePlain();
    JoinAvoids(CsvHeaders, ',', '\n');
    RowsRoundTrip(txs, isoDate, num);
    var lines := [Join(CsvHeaders, ',')] + rows;
    LinesRoundTrip(Join(CsvHeaders, ','), rows);
    assert Split(ExportCsv(txs, isoDate, num).value, '\n') == lines;
    forall i | 0 <= i < |txs|
      ensures UnquoteAll(Split(lines[i + 1], ',')) == CsvCells(txs[i], isoDate, num)
    {
      assert lines[i + 1] == rows[i];
    }
  }

  /** The export's lines read back when none of them holds a newline. */
  lemma {:induction false} LinesRoundTrip(header: string, rows: seq<string>)
    requires '\n' !in header
    requires forall i :: 0 <= i < |rows| ==> '\n' !in rows[i]
    ensures Split(Join([header] + rows, '\n'), '\n') == [header] + rows
  {
    var lines := [header] + rows;
    forall k | 0 <= k < |lines|
      ensures '\n' !in lines[k]
    {
      if k > 0 {
        assert lines[k] == rows[k - 1];
      }
    }
    SplitJoin(lines, '\n');
  }

  /** As written the export does not escape: a comma inside a cell (a
      wallet address, say) becomes a field separator, so the one-cell row
      `"a,b"` reads back as two fields. */
  lemma {:induction false} CommaInCellSplitsRow()
    ensures |Split(Join(QuoteAll(["a,b"]), ','), ',')| == 2
  {
    var q := Quote("a,b");
    assert q == ['"', 'a', ',', 'b', '"'];
    assert Join(QuoteAll(["a,b"]), ',') == q;
    assert IndexOf(q, ',') == 2;
    assert q[3..] == ['b', '"'];
    assert ',' !in q[3..];
  }
}

=== FILE: buy.dfy ===
/** The buy form's submission: the checks in their order, the upload of the
    payment screenshot, and the pending buy request it creates. */
module BuyPage {
  import opened Types
  import opened Db
  import opened OrderForm

  const MissingScreenshot := "পেমেন্ট স্ক্রিনশট প্রয়োজন।"

  datatype BuyForm = BuyForm(
    selectedCoinId: string,
    amount: real,
    paymentMethod: string,
    paymentNumber: string,
    file: Option<ProofFile>)

  /** The audit detail; number printing is a parameter. */
  function BuyDetail(amount: real, symbol: string, show: real -> string): string
  {
    "Requested " + show(amount) + " " + symbol
  }

  /** What a successful submission writes: exactly one pending buy request
      appended under the fresh id, for the signed-in user, with the coin
      snapshot, the uploaded screenshot and the payment fields, and one
      `CREATE_BUY` audit entry by the user. */
  predicate BuyCreated(
    s: Store, after: Store, newId: string, form: BuyForm, u: User, coin: Coin, url: string,
    now: int, show: real -> string)
  {
    |after.buyRequests| == |s.buyRequests| + 1 &&
    after.buyRequests[..|s.buyRequests|] == s.buyRequests &&
    after.sellRequests == s.sellRequests &&
    var d := after.buyRequests[|s.buyRequests|].data;
    after.buyRequests[|s.buyRequests|].id == newId &&
    d.kind == Buy && WellTagged(d) && d.status == Pending && d.userId == u.uid &&
    d.userEmail == u.email.GetOr("") && d.timestamp == now &&
    d.coinId == coin.id && d.coinPriceAtRequest == coin.price && d.coinSymbol == coin.symbol &&
    d.amount == form.amount && d.totalPrice == DisplayTotal(Some(coin), form.amount) &&
    d.userScreenshotURL == url && d.adminScreenshotURL == None &&
    d.details == BuyFields(form.paymentMethod, form.paymentNumber) &&
    after.logs == s.logs + [AuditLog("admin", u.email.GetOr(""), "CREATE_BUY", BuyDetail(form.amount, coin.symbol, show), now)] &&
    newId in after.chats && after.chats[newId] == OpenedChat(newId, u.uid, now) &&
    after.chats == s.chats[newId := OpenedChat(newId, u.uid, now)] &&
    after.notifications == s.notifications && after.messages == s.messages && after.admins == s.admins &&
    after.settings == s.settings
  }

  /** The writes of a submission that passed every check. */
  function AcceptBuy(
    s: Store, form: BuyForm, u: User, coin: Coin, url: string,
    now: int, newId: string, show: real -> string): (r: Store)
    requires RequestIdFree(s, Buy, newId)
    ensures BuyCreated(s, r, newId, form, u, coin, url, now, show)
  {
    var d := NewRequest(Buy, u, coin, form.amount, url, BuyFields(form.paymentMethod, form.paymentNumber), now);
    var r := Place(s, d, newId, u.email.GetOr(""), "CREATE_BUY", BuyDetail(form.amount, coin.symbol, show), now);
    assert r.buyRequests[|s.buyRequests|] == Request(newId, d);
    r
  }

  /** `handleSubmit`: no user sends to login; no screenshot shows an error;
      no selected coin does nothing; a failed upload shows the upload error.
      Only then is the request created, followed by its `CREATE_BUY` audit
      entry, and the user is sent to the dashboard. Every early exit leaves
      the store untouched. */
  function SubmitBuy(
    s: Store, catalog: seq<Coin>, form: BuyForm, user: Option<User>, upload: UploadResult,
    now: int, newId: string, show: real -> string): (r: Submission)
    requires RequestIdFree(s, Buy, newId)
    ensures user.None? ==> r == Submission(s, ToLogin)
    ensures user.Some? && form.file.None? ==> r == Submission(s, ShowError(MissingScreenshot))
    ensures user.Some? && form.file.Some? && SelectCoin(catalog, form.selectedCoinId).None? ==> r == Submission(s, NoAction)
    ensures user.Some? && form.file.Some? && SelectCoin(catalog, form.selectedCoinId).Some? && upload.UploadFailed? ==>
      r == Submission(s, ShowError(UploadFailureText))
    ensures r.outcome == ToDashboard <==>
      user.Some? && form.file.Some? && SelectCoin(catalog, form.selectedCoinId).Some? && upload.Uploaded?
    ensures r.outcome == ToDashboard ==>
      SelectCoin(catalog, form.selectedCoinId).value.id == form.selectedCoinId &&
      BuyCreated(s, r.store, newId, form, user.value, SelectCoin(catalog, form.selectedCoinId).value, upload.url, now, show)
    ensures r.outcome != ToDashboard ==> r.store == s
  {
    if user.None? then Submission(s, ToLogin)
    else if form.file.None? then Submission(s, ShowError(MissingScreenshot))
    else
      match SelectCoin(catalog, form.selectedCoinId)
      case None => Submission(s, NoAction)
      case Some(coin) =>
        match upload
        case UploadFailed => Submission(s, ShowError(UploadFailureText))
        case Uploaded(url) => Submission(AcceptBuy(s, form, user.value, coin, url, now, newId, show), ToDashboard)
  }

  /** The stored total of a created buy request is the snapshot price times
      the amount when the amount is positive, and zero when it is not. */
  lemma {:induction false} BuyTotalIsSnapshotProduct(
    s: Store, catalog: seq<Coin>, form: BuyForm, user: Option<User>, upload: UploadResult,
    now: int, newId: string, show: real -> string)
    requires RequestIdFree(s, Buy, newId)
    requires SubmitBuy(s, catalog, form, user, upload, now, newId, show).outcome == ToDashboard
    ensures var d := SubmitBuy(s, catalog, form, user, upload, now, newId, show).store.buyRequests[|s.buyRequests|].data;
      d.amount == form.amount &&
      (form.amount > 0.0 ==> d.totalPrice == d.amount * d.coinPriceAtRequest) &&
      (form.amount <= 0.0 ==> d.totalPrice == 0.0)
  {
    var r := SubmitBuy(s, catalog, form, user, upload, now, newId, show);
    var coin := SelectCoin(catalog, form.selectedCoinId).value;
    var d := r.store.buyRequests[|s.buyRequests|].data;
    assert d.amount == form.amount && d.totalPrice == DisplayTotal(Some(coin), form.amount) && d.coinPriceAtRequest == coin.price by {
      assert BuyCreated(s, r.store, newId, form, user.value, coin, upload.url, now, show);
    }
  }

  /** The worked example of a buy: 0.01 BTC at 64230.50 is stored with a
      total of 642.305. */
  lemma WorkedExample(s: Store, user: User, url: string, now: int, show: real -> string)
    requires RequestIdFree(s, Buy, "tx1")
    ensures var form := BuyForm("btc", 0.01, "bKash", "01700000000", Some(ProofFile("pay.png")));
      var r := SubmitBuy(s, [Coin("btc", "Bitcoin", "BTC", 64230.50)], form, Some(user), Uploaded(url), now, "tx1", show);
      r.outcome == ToDashboard && r.store.buyRequests[|s.buyRequests|].data.totalPrice == 642.305
  {
    var form := BuyForm("btc", 0.01, "bKash", "01700000000", Some(ProofFile("pay.png")));
    BuyTotalIsSnapshotProduct(s, [Coin("btc", "Bitcoin", "BTC", 64230.50)], form, Some(user), Uploaded(url), now, "tx1", show);
  }
}

=== FILE: chat_window.dfy ===
/** The per-request chat panel: the guard on the draft, the message it hands
    to the store, and how each message is attributed on screen. */
module ChatWindow {
  import opened Types
  import opened Seqs
  import opened Db

  /** ECMAScript WhiteSpace and LineTerminator code points: what
      `String.prototype.trim` strips. */
  predicate IsJsWhitespace(c: char)
  {
    c == '\t' || c == '\U{000B}' || c == '\U{000C}' || c == ' ' || c == '\U{00A0}' || c == '\U{FEFF}' ||
    c == '\U{1680}' || ('\U{2000}' <= c <= '\U{200A}') || c == '\U{202F}' || c == '\U{205F}' || c == '\U{3000}' ||
    c == '\n' || c == '\r' || c == '\U{2028}' || c == '\U{2029}'
  }

  /** A draft with nothing but whitespace in it. */
  predicate Blank(s: string)
  {
    forall i :: 0 <= i < |s| ==> IsJsWhitespace(s[i])
  }

  /** Drops leading whitespace. */
  function TrimStart(s: string): (r: string)
    ensures |r| <= |s| && r == s[|s| - |r|..]
    ensures Blank(s[..|s| - |r|])
    ensures |r| > 0 ==> !IsJsWhitespace(r[0])
  {
    if |s| > 0 && IsJsWhitespace(s[0]) then
      var r := TrimStart(s[1..]);
      var k := |s| - |r|;
      assert Blank(s[1..][..k - 1]);
      assert Blank(s[..k]) by {
        forall i | 0 < i < k
          ensures IsJsWhitespace(s[..k][i])
        {
          assert s[..k][i] == s[1..][..k - 1][i - 1];
        }
      }
      r
    else s
  }

  /** Drops trailing whitespace. */
  function TrimEnd(s: string): (r: string)
    ensures |r| <= |s| && r == s[..|r|]
    ensures Blank(s[|r|..])
    ensures |r| > 0 ==> !IsJsWhitespace(r[|r| - 1])
  {
    if |s| > 0 && IsJsWhitespace(s[|s| - 1]) then
      var r := TrimEnd(s[..|s| - 1]);
      assert s[|r|..] == s[..|s| - 1][|r|..] + [s[|s| - 1]];
      r
    else s
  }

  /** `String.prototype.trim`. */
  function Trim(s: string): string
  {
    TrimEnd(TrimStart(s))
  }

  /** `!draft.trim()` holds exactly for blank drafts. */
  lemma {:induction false} TrimEmptyIffBlank(s: string)
    ensures Trim(s) == "" <==> Blank(s)
  {
    var a := TrimStart(s);
    if Trim(s) == "" {
      assert Blank(a[0..]);
      assert |a| == 0;
      assert s[..|s|] == s;
    }
  }

  /** The message handed to the store: the admin view sends as `admin`, a
      user sends under their uid; the email falls back to `Anonymous`; the
      text is the draft exactly as typed, untrimmed. */
  function OutgoingFor(requestId: string, user: User, isAdminView: bool, draft: string): (m: Outgoing)
    ensures m.requestId == requestId && m.text == draft && m.isAdmin == isAdminView
    ensures isAdminView ==> m.senderId == AdminSender
    ensures !isAdminView ==> m.senderId == user.uid
    ensures m.senderEmail != ""
    ensures Truthy(user.email) ==> m.senderEmail == user.email.value
    ensures !Truthy(user.email) ==> m.senderEmail == "Anonymous"
  {
    Outgoing(requestId, if isAdminView then AdminSender else user.uid, OrElse(user.email, "Anonymous"), draft, isAdminView)
  }

  /** The send button is enabled when no send is in flight and the draft is
      not blank. */
  predicate SendEnabled(sending: bool, draft: string)
  {
    !sending && Trim(draft) != ""
  }

  datatype SendOutcome = SendOutcome(store: Store, draft: string)

  /** `handleSend`: nothing happens for a blank draft or without a signed-in
      user; otherwise the message is sent, and the draft is cleared only when
      the store accepted it (`delivered`). */
  function HandleSend(
    s: Store, requestId: string, isAdminView: bool, draft: string,
    user: Option<User>, delivered: bool, now: int): (r: SendOutcome)
    ensures Blank(draft) || user.None? || !delivered ==> r == SendOutcome(s, draft)
    ensures !Blank(draft) && user.Some? && delivered ==>
      r.draft == "" &&
      r.store.Thread(requestId) == s.Thread(requestId) + [Stamp(OutgoingFor(requestId, user.value, isAdminView, draft), now)] &&
      r.store == SendMessage(s, requestId, OutgoingFor(requestId, user.value, isAdminView, draft), now)
  {
    TrimEmptyIffBlank(draft);
    if Trim(draft) == "" || user.None? then SendOutcome(s, draft)
    else if !delivered then SendOutcome(s, draft)
    else SendOutcome(SendMessage(s, requestId, OutgoingFor(requestId, user.value, isAdminView, draft), now), "")
  }

  /** The enabled send button and the send guard agree: with no send in
      flight the button is enabled exactly for a non-blank draft, and a
      click on a disabled button would change nothing. */
  lemma {:induction false} SendButtonMatchesGuard(
    s: Store, requestId: string, isAdminView: bool, draft: string,
    user: Option<User>, delivered: bool, now: int)
    ensures SendEnabled(false, draft) <==> !Blank(draft)
    ensures !SendEnabled(false, draft) ==>
      HandleSend(s, requestId, isAdminView, draft, user, delivered, now) == SendOutcome(s, draft)
    ensures SendEnabled(false, draft) && user.Some? && delivered ==>
      HandleSend(s, requestId, isAdminView, draft, user, delivered, now).store ==
        SendMessage(s, requestId, OutgoingFor(requestId, user.value, isAdminView, draft), now)
  {
    TrimEmptyIffBlank(draft);
  }

  /** Which bubbles are drawn as the viewer's own. */
  predicate IsMe(m: ChatMessage, isAdminView: bool, viewerUid: Option<string>)
  {
    if isAdminView then m.isAdmin else !m.isAdmin && viewerUid == Some(m.senderId)
  }

  /** A sender sees their own message as theirs, in the view it was sent
      from. */
  lemma {:induction false} OwnMessageIsMine(requestId: string, user: User, isAdminView: bool, draft: string, now: int)
    ensures IsMe(Stamp(OutgoingFor(requestId, user, isAdminView, draft), now), isAdminView, Some(user.uid))
  {
  }

  /** Admin messages are shared: every admin view shows every admin's
      message as its own, whoever sent it; no user view does. */
  lemma {:induction false} AdminMessagesAreShared(
    requestId: string, sender: User, draft: string, now: int, viewer: Option<string>)
    ensures var m := Stamp(OutgoingFor(requestId, sender, true, draft), now);
      IsMe(m, true, viewer) && !IsMe(m, false, viewer)
  {
  }

  /** A user's message is theirs alone: another user and every admin view
      see it as someone else's. */
  lemma {:induction false} UserMessageIsPrivate(
    requestId: string, sender: User, draft: string, now: int, viewer: Option<string>)
    requires viewer != Some(sender.uid)
    ensures var m := Stamp(OutgoingFor(requestId, sender, false, draft), now);
      !IsMe(m, false, viewer) && !IsMe(m, true, viewer) && IsMe(m, false, Some(sender.uid))
  {
  }

  /** The name above a bubble: `Support Agent` for admin messages, otherwise
      the part of the sender email before the first `@`. */
  function SenderLabel(m: ChatMessage): (r: string)
    ensures m.isAdmin ==> r == "Support Agent"
    ensures !m.isAdmin ==> '@' !in r && r <= m.senderEmail
    ensures !m.isAdmin && '@' in m.senderEmail ==> m.senderEmail[|r|] == '@'
    ensures !m.isAdmin && '@' !in m.senderEmail ==> r == m.senderEmail
  {
    if m.isAdmin then "Support Agent" else Before(m.senderEmail, '@')
  }

  /** A user without an email is labelled `Anonymous`. */
  lemma {:induction false} AnonymousLabel(requestId: string, uid: string, draft: string, now: int)
    ensures SenderLabel(Stamp(OutgoingFor(requestId, User(uid, None), false, draft), now)) == "Anonymous"
  {
    var e := "Anonymous";
    assert forall i :: 0 <= i < |e| ==> e[i] != '@';
  }
}

=== FILE: dashboard.dfy ===
/** The user's dashboard: their own requests of one type, newest first, with
    a status badge, the detail header and links to both proofs. */
module Dashboard {
  import opened Types
  import opened Db
  import opened Seqs
  import opened OrderForm
  import BuyPage
  import AdminPage

  /** The status badge's text. */
  function StatusLabel(status: Status): string
  {
    match status
    case Approved => "অনুমোদিত"
    case Rejected => "বাতিল"
    case Pending => "অপেক্ষমান"
  }

  datatype Tone = Emerald | Rose | Amber

  /** The status badge's colour. */
  function StatusTone(status: Status): Tone
  {
    match status
    case Approved => Emerald
    case Rejected => Rose
    case Pending => Amber
  }

  /** Badge text and colour each tell the three statuses apart. */
  lemma {:induction false} BadgeIdentifiesStatus(a: Status, b: Status)
    ensures StatusLabel(a) == StatusLabel(b) <==> a == b
    ensures StatusTone(a) == StatusTone(b) <==> a == b
  {
  }

  /** The notification title of a decision names the same status as the
      dashboard badge; a pending update, which the console never issues, is
      announced as a rejection. */
  lemma {:induction false} TitleMatchesBadge(status: Status)
    ensures status != Pending ==> NotificationTitle(status) == "রিকুয়েস্ট " + StatusLabel(status)
    ensures NotificationTitle(Pending) == "রিকুয়েস্ট " + StatusLabel(Rejected)
  {
  }

  /** The list loaded for a tab: nothing without a signed-in user (the page
      redirects to login), otherwise the user's requests of that type. */
  function LoadDashboard(s: Store, user: Option<User>, tab: TxType): (r: Option<seq<Request>>)
    ensures r.None? <==> user.None?
    ensures r.Some? ==> forall i :: 0 <= i < |r.value| ==> r.value[i].data.userId == user.value.uid && r.value[i].data.kind == tab
    ensures r.Some? ==> forall y :: y in s.Requests(tab) && y.data.userId == user.value.uid ==> TagAs(y, tab) in r.value
    ensures r.Some? ==> multiset(r.value) == multiset(TagAll(OwnedBy(s.Requests(tab), user.value.uid), tab))
    ensures r.Some? ==> SortedDesc(r.value, RequestTime)
  {
    if user.None? then None else Some(GetUserTransactions(s, user.value.uid, tab))
  }

  const HeaderPrefix := "রিকুয়েস্ট #"

  /** The prefix is spelled as the page spells it: eleven code points, with
      the precomposed letter U+09DF in fifth place. */
  lemma HeaderPrefixSpelling()
    ensures |HeaderPrefix| == 11 && HeaderPrefix[4] == '\U{09DF}'
    ensures NotificationTitle(Approved)[..10] == HeaderPrefix[..10]
  {
  }

  /** The detail dialog's title: the prefix, then at most six leading
      characters of the request id. */
  function DetailHeader(r: Request): (h: string)
    ensures HeaderPrefix <= h
    ensures |h| == |HeaderPrefix| + (if |r.id| < 6 then |r.id| else 6)
    ensures h[|HeaderPrefix|..] <= r.id
  {
    HeaderPrefix + ShortId(r.id)
  }

  /** The admin's payout proof link is shown when its URL is non-empty. */
  predicate ShowsAdminProof(r: Request)
  {
    Truthy(r.data.adminScreenshotURL)
  }

  /** A buy request just submitted shows on its owner's buy tab as pending,
      without an admin proof. */
  lemma {:induction false} SubmittedBuyIsOnDashboard(
    s: Store, catalog: seq<Coin>, form: BuyPage.BuyForm, user: User, upload: UploadResult,
    now: int, newId: string, show: real -> string)
    requires RequestIdFree(s, Buy, newId)
    requires BuyPage.SubmitBuy(s, catalog, form, Some(user), upload, now, newId, show).outcome == ToDashboard
    ensures var after := BuyPage.SubmitBuy(s, catalog, form, Some(user), upload, now, newId, show).store;
      exists x :: x in LoadDashboard(after, Some(user), Buy).value && x.id == newId &&
        StatusLabel(x.data.status) == "অপেক্ষমান" && !ShowsAdminProof(x)
  {
    var after := BuyPage.SubmitBuy(s, catalog, form, Some(user), upload, now, newId, show).store;
    assert BuyPage.BuyCreated(s, after, newId, form, user, SelectCoin(catalog, form.selectedCoinId).value, upload.url, now, show);
    var y := after.buyRequests[|s.buyRequests|];
    assert y in after.Requests(Buy);
    assert TagAs(y, Buy) in LoadDashboard(after, Some(user), Buy).value;
  }

  /** The store position a dashboard row was read from. */
  lemma {:induction false} RowSource(s: Store, user: User, tab: TxType, x: Request) returns (i: nat)
    requires x in LoadDashboard(s, Some(user), tab).value
    ensures i < |s.Requests(tab)| && x == TagAs(s.Requests(tab)[i], tab)
  {
    assert x in GetUserTransactions(s, user.uid, tab);
    var y :| y in s.Requests(tab) && y.data.userId == user.uid && x == TagAs(y, tab);
    var j :| 0 <= j < |s.Requests(tab)| && s.Requests(tab)[j] == y;
    i := j;
  }

  /** After an admin's decision, every dashboard row of that request shows
      the decided status; an approval whose proof upload returned a non-empty
      URL also shows the proof link. */
  lemma {:induction false} DecisionIsOnDashboard(
    s: Store, file: Option<ProofFile>, tx: Request, status: Status, upload: UploadResult,
    admin: Option<User>, now: int, notifId: string, owner: User)
    requires !HasNotification(s.notifications, notifId)
    requires AdminPage.Decide(s, file, tx, status, upload, admin, now, notifId).Some?
    ensures var after := AdminPage.Decide(s, file, tx, status, upload, admin, now, notifId).value;
      forall x :: x in LoadDashboard(after, Some(owner), tx.data.kind).value && x.id == tx.id ==>
        StatusLabel(x.data.status) == StatusLabel(status) &&
        (AdminPage.UploadsProof(status, file) && upload.url != "" ==> ShowsAdminProof(x))
  {
    var k := tx.data.kind;
    var after := AdminPage.Decide(s, file, tx, status, upload, admin, now, notifId).value;
    forall x | x in LoadDashboard(after, Some(owner), k).value && x.id == tx.id
      ensures x.data.status == status
      ensures AdminPage.UploadsProof(status, file) && upload.url != "" ==> ShowsAdminProof(x)
    {
      var i := RowSource(after, owner, k, x);
      assert s.Requests(k)[i].id == tx.id;
    }
  }
}

=== FILE: db.dfy ===
/** The document store behind the request lifecycle and the data-access
    functions over it. Every collection is a sequence of documents in
    insertion order; a query filters it, orders it by a timestamp and cuts it
    to a limit. Every write is a pure state transition from one `Store` to the
    next. Ids that the store would generate and the current time are
    parameters. */
module Db {
  import opened Types
  import opened Seqs

  datatype Error = NotFound(id: string)

  datatype Result<T> = Ok(value: T) | Err(error: Error)

  /** The per-request chat document: what `createTransaction` writes, merged
      by every `sendMessage`. Fields a write never set are `None`. */
  datatype ChatMeta = ChatMeta(
    requestId: Option<string>,
    users: Option<seq<string>>,
    lastMessage: string,
    lastSender: Option<string>,
    updatedAt: int)

  datatype SiteSettings = SiteSettings(
    currency: string,
    paymentMethods: seq<string>,
    minimumBuy: real,
    minimumSell: real,
    fees: real)

  datatype Store = Store(
    buyRequests: seq<Request>,
    sellRequests: seq<Request>,
    chats: map<string, ChatMeta>,
    messages: map<string, seq<ChatMessage>>,
    notifications: seq<AppNotification>,
    logs: seq<AuditLog>,
    admins: seq<AdminProfile>,
    settings: Option<SiteSettings>)
  {
    /** The collection a request type lives in. */
    function Requests(t: TxType): seq<Request>
    {
      match t
      case Buy => buyRequests
      case Sell => sellRequests
    }

    function WithRequests(t: TxType, c: seq<Request>): (r: Store)
      ensures r.Requests(t) == c
      ensures r.Requests(Other(t)) == Requests(Other(t))
    {
      match t
      case Buy => this.(buyRequests := c)
      case Sell => this.(sellRequests := c)
    }

    /** The stored messages of one chat, in insertion order. */
    function Thread(requestId: string): seq<ChatMessage>
    {
      if requestId in messages then messages[requestId] else []
    }
  }

  function Other(t: TxType): TxType
  {
    match t
    case Buy => Sell
    case Sell => Buy
  }

  predicate HasRequest(c: seq<Request>, id: string)
  {
    exists i :: 0 <= i < |c| && c[i].id == id
  }

  predicate RequestIdFree(s: Store, t: TxType, id: string)
  {
    !HasRequest(s.Requests(t), id)
  }

  predicate HasNotification(ns: seq<AppNotification>, id: string)
  {
    exists i :: 0 <= i < |ns| && ns[i].id == id
  }

  /** No two notifications share an id, as holds for ids the store makes. */
  predicate UniqueIds(ns: seq<AppNotification>)
  {
    forall i, j :: 0 <= i < j < |ns| ==> ns[i].id != ns[j].id
  }

  // ---------------------------------------------------------------------
  // Admin allow-list and settings

  /** `checkIsAdmin`: an empty email is never an admin; otherwise the query
      for admin profiles with that email must return something. */
  function CheckIsAdmin(admins: seq<AdminProfile>, email: string): (r: bool)
    ensures email == "" ==> !r
    ensures r <==> email != "" && exists i :: 0 <= i < |admins| && admins[i].email == email
  {
    email != "" && Count(admins, HasEmail(email)) > 0
  }

  function HasEmail(email: string): AdminProfile -> bool
  {
    (a: AdminProfile) => a.email == email
  }

  function DefaultSettings(): SiteSettings
  {
    SiteSettings("BDT", ["bKash", "Nagad", "Rocket", "Bank Transfer"], 1000.0, 1000.0, 0.5)
  }

  /** `getSiteSettings`: the stored settings document when it can be read,
      the built-in defaults when it is missing or the read fails. */
  function GetSiteSettings(s: Store, readFails: bool): (r: SiteSettings)
    ensures readFails ==> r == DefaultSettings()
    ensures !readFails && s.settings.Some? ==> r == s.settings.value
    ensures r == DefaultSettings() || s.settings == Some(r)
  {
    if readFails then DefaultSettings() else s.settings.GetOr(DefaultSettings())
  }

  /** ASCII case folding of one character. */
  function LowerChar(c: char): char
  {
    if 'A' <= c <= 'Z' then (c as int - 'A' as int + 'a' as int) as char else c
  }

  /** `addNewCoin`'s document id: the symbol in lower case. */
  function CoinIdFor(symbol: string): (r: string)
    ensures |r| == |symbol|
    ensures forall i :: 0 <= i < |r| ==> !('A' <= r[i] <= 'Z')
    ensures forall i :: 0 <= i < |r| ==> r[i] == symbol[i] || ('A' <= symbol[i] <= 'Z' && r[i] as int == symbol[i] as int + 32)
  {
    Map(LowerChar, symbol)
  }

  /** Deriving the id twice gives the same id, so an id is its own id. */
  lemma CoinIdIdempotent(symbol: string)
    ensures CoinIdFor(CoinIdFor(symbol)) == CoinIdFor(symbol)
  {
    var once := CoinIdFor(symbol);
    assert forall i :: 0 <= i < |once| ==> LowerChar(once[i]) == once[i];
  }

  // ---------------------------------------------------------------------
  // Requests

  /** `createTransaction`: stores the request body unchanged under a fresh id
      and writes (replacing) the chat document for that id. */
  function CreateTransaction(s: Store, t: TxType, data: RequestData, id: string, now: int): (r: Store)
    requires RequestIdFree(s, t, id)
    ensures r.Requests(t) == s.Requests(t) + [Request(id, data)]
    ensures HasRequest(r.Requests(t), id)
    ensures id in r.chats && r.chats[id] == OpenedChat(id, data.userId, now)
    ensures r.chats[id].users == Some([data.userId, AdminSender])
    ensures r.chats[id].lastMessage == "Request created"
    ensures forall k :: k in s.chats && k != id ==> k in r.chats && r.chats[k] == s.chats[k]
    ensures r.chats == s.chats[id := OpenedChat(id, data.userId, now)]
    ensures r == s.WithRequests(t, r.Requests(t)).(chats := r.chats)
  {
    var r := s.WithRequests(t, s.Requests(t) + [Request(id, data)]).(chats := s.chats[id := OpenedChat(id, data.userId, now)]);
    assert r.Requests(t)[|s.Requests(t)|].id == id;
    r
  }

  function OpenedChat(id: string, userId: string, now: int): ChatMeta
  {
    ChatMeta(Some(id), Some([userId, AdminSender]), "Request created", None, now)
  }

  /** A listed request carries the type of the collection it was read from,
      whatever its stored body says. */
  function TagAs(x: Request, t: TxType): Request
  {
    Request(x.id, x.data.(kind := t))
  }

  function TagAll(c: seq<Request>, t: TxType): (r: seq<Request>)
    ensures |r| == |c|
    ensures forall i :: 0 <= i < |c| ==> r[i] == TagAs(c[i], t)
  {
    if |c| == 0 then [] else [TagAs(c[0], t)] + TagAll(c[1..], t)
  }

  /** The query `where('userId', '==', u)`, in collection order. */
  function OwnedBy(c: seq<Request>, u: string): (r: seq<Request>)
    ensures |r| <= |c|
    ensures forall x :: x in r <==> x in c && x.data.userId == u
  {
    if |c| == 0 then []
    else if c[0].data.userId == u then [c[0]] + OwnedBy(c[1..], u)
    else OwnedBy(c[1..], u)
  }

  /** A listing of collection `c` as read from the collection for `t`:
      every record tagged with `t`, newest first. */
  function Listing(c: seq<Request>, t: TxType): (r: seq<Request>)
    ensures SortedDesc(r, RequestTime)
    ensures |r| == |c|
    ensures multiset(r) == multiset(TagAll(c, t))
    ensures forall x :: x in r <==> exists y :: y in c && x == TagAs(y, t)
    ensures forall i :: 0 <= i < |r| ==> r[i].data.kind == t
  {
    var m := TagAll(c, t);
    var r := SortDesc(m, RequestTime);
    SameElements(r, m);
    forall x | x in m
      ensures exists y :: y in c && x == TagAs(y, t)
    {
      var j :| 0 <= j < |m| && m[j] == x;
      assert c[j] in c;
    }
    forall y | y in c
      ensures TagAs(y, t) in m
    {
      var j :| 0 <= j < |c| && c[j] == y;
      assert m[j] == TagAs(y, t);
    }
    assert forall i :: 0 <= i < |r| ==> r[i] in m;
    r
  }

  /** `getUserTransactions`: the user's requests of one type, newest first. */
  function GetUserTransactions(s: Store, u: string, t: TxType): (r: seq<Request>)
    ensures SortedDesc(r, RequestTime)
    ensures multiset(r) == multiset(TagAll(OwnedBy(s.Requests(t), u), t))
    ensures forall x :: x in r <==> exists y :: y in s.Requests(t) && y.data.userId == u && x == TagAs(y, t)
    ensures forall i :: 0 <= i < |r| ==> r[i].data.kind == t && r[i].data.userId == u
  {
    var owned := OwnedBy(s.Requests(t), u);
    var r := Listing(owned, t);
    forall x
      ensures x in r <==> exists y :: y in s.Requests(t) && y.data.userId == u && x == TagAs(y, t)
    {
      if x in r {
        var y :| y in owned && x == TagAs(y, t);
        assert y in s.Requests(t) && y.data.userId == u;
      }
      if exists y :: y in s.Requests(t) && y.data.userId == u && x == TagAs(y, t) {
        var y :| y in s.Requests(t) && y.data.userId == u && x == TagAs(y, t);
        assert y in owned;
      }
    }
    forall i | 0 <= i < |r|
      ensures r[i].data.userId == u
    {
      assert r[i] in r;
    }
    r
  }

  /** `getAllTransactions`: every request of one type, newest first. */
  function GetAllTransactions(s: Store, t: TxType): (r: seq<Request>)
    ensures SortedDesc(r, RequestTime)
    ensures |r| == |s.Requests(t)|
    ensures multiset(r) == multiset(TagAll(s.Requests(t), t))
    ensures forall x :: x in r <==> exists y :: y in s.Requests(t) && x == TagAs(y, t)
    ensures forall i :: 0 <= i < |r| ==> r[i].data.kind == t
  {
    Listing(s.Requests(t), t)
  }

  /** The status the update writes, and the admin proof only when a
      non-empty URL is given; every other field is kept. */
  function Resolve(d: RequestData, status: Status, url: Option<string>): RequestData
  {
    d.(status := status, adminScreenshotURL := if Truthy(url) then url else d.adminScreenshotURL)
  }

  /** The document `id` gets the update; every other document is kept. */
  function UpdateAll(c: seq<Request>, id: string, status: Status, url: Option<string>): (r: seq<Request>)
    ensures |r| == |c|
    ensures forall i :: 0 <= i < |c| ==>
      r[i] == if c[i].id == id then Request(id, Resolve(c[i].data, status, url)) else c[i]
  {
    if |c| == 0 then []
    else
      var first := if c[0].id == id then Request(id, Resolve(c[0].data, status, url)) else c[0];
      [first] + UpdateAll(c[1..], id, status, url)
  }

  /** Title word for the decision: anything but approval reads as a rejection. */
  function StatusWord(status: Status): string
  {
    if status == Approved then "অনুমোদিত" else "বাতিল"
  }

  function TypeWord(t: TxType): string
  {
    if t == Buy then "ক্রয়" else "বিক্রয়"
  }

  function NotificationTitle(status: Status): (r: string)
    ensures status == Approved ==> r == "রিকুয়েস্ট অনুমোদিত"
    ensures status != Approved ==> r == "রিকুয়েস্ট বাতিল"
  {
    "রিকুয়েস্ট " + StatusWord(status)
  }

  /** The notification text; the short id follows the `#`. */
  function NotificationMessage(t: TxType, id: string, status: Status): (r: string)
    ensures var k := |"আপনার " + TypeWord(t) + " রিকুয়েস্ট #"|;
      k + |ShortId(id)| <= |r| && r[k..k + |ShortId(id)|] == ShortId(id) && r[k - 1] == '#'
  {
    var head := "আপনার " + TypeWord(t) + " রিকুয়েস্ট #";
    var r := head + ShortId(id) + " " + StatusWord(status) + " করা হয়েছে।";
    assert r[|head|..|head| + |ShortId(id)|] == ShortId(id);
    r
  }

  /** The audit tag of a status update: it depends on the request type only,
      so a rejection is logged as an approval. */
  function UpdateActionType(t: TxType): string
  {
    if t == Buy then "APPROVE_BUY" else "APPROVE_SELL"
  }

  /** `updateTransactionStatus`. Writes the status (and the admin proof when
      a non-empty URL is given) to the document `id` of the collection for
      `t`, then appends one unread notification for `userId`, then appends an
      audit entry when an actor email is given. The prior status is not
      looked at. The only failure is the store's own: updating a document that
      does not exist fails before anything is written. */
  function UpdateTransactionStatus(
    s: Store, id: string, t: TxType, status: Status, userId: string,
    adminScreenshotURL: Option<string>, adminEmail: Option<string>,
    now: int, notifId: string): (r: Result<Store>)
    requires !HasNotification(s.notifications, notifId)
    ensures r.Err? <==> !HasRequest(s.Requests(t), id)
    ensures r.Err? ==> r.error == NotFound(id)
    ensures r.Ok? ==> |r.value.Requests(t)| == |s.Requests(t)|
    ensures r.Ok? ==> forall i :: 0 <= i < |s.Requests(t)| ==>
      var old_, new_ := s.Requests(t)[i], r.value.Requests(t)[i];
      new_.id == old_.id &&
      (old_.id != id ==> new_ == old_) &&
      (old_.id == id ==>
        new_.data.status == status &&
        new_.data.adminScreenshotURL == (if Truthy(adminScreenshotURL) then adminScreenshotURL else old_.data.adminScreenshotURL) &&
        new_.data.(status := old_.data.status, adminScreenshotURL := old_.data.adminScreenshotURL) == old_.data)
    ensures r.Ok? ==> r.value.Requests(Other(t)) == s.Requests(Other(t))
    ensures r.Ok? ==> |r.value.notifications| == |s.notifications| + 1
    ensures r.Ok? ==> r.value.notifications[..|s.notifications|] == s.notifications
    ensures r.Ok? ==> var n := r.value.notifications[|s.notifications|];
      n.id == notifId && n.userId == userId && !n.read && n.timestamp == now &&
      n.title == NotificationTitle(status) && n.message == NotificationMessage(t, id, status)
    ensures r.Ok? && !Truthy(adminEmail) ==> r.value.logs == s.logs
    ensures r.Ok? && Truthy(adminEmail) ==>
      r.value.logs == s.logs + [AuditLog("admin", adminEmail.value, UpdateActionType(t), "Updated tx " + id + " to " + StatusText(status), now)]
    ensures r.Ok? ==> r.value == s.WithRequests(t, r.value.Requests(t)).(notifications := r.value.notifications, logs := r.value.logs)
  {
    if !HasRequest(s.Requests(t), id) then Err(NotFound(id))
    else
      var updated := s.WithRequests(t, UpdateAll(s.Requests(t), id, status, adminScreenshotURL));
      var notified := CreateNotification(updated,
        AppNotification(notifId, userId, NotificationTitle(status), NotificationMessage(t, id, status), false, now));
      if Truthy(adminEmail) then
        Ok(LogAction(notified, adminEmail.value, UpdateActionType(t), "Updated tx " + id + " to " + StatusText(status), now))
      else Ok(notified)
  }

  /** No terminal-state guard: an approved request can be rejected
      afterwards, and the store accepts it. */
  lemma ApprovedCanBeRejected(s: Store, data: RequestData)
    requires data.status == Approved
    requires s.buyRequests == [Request("tx1", data)]
    requires !HasNotification(s.notifications, "n1")
    ensures var r := UpdateTransactionStatus(s, "tx1", Buy, Rejected, data.userId, None, Some("a@x"), 5, "n1");
      r.Ok? && r.value.buyRequests[0].data.status == Rejected
  {
    assert HasRequest(s.Requests(Buy), "tx1") by { assert s.buyRequests[0].id == "tx1"; }
  }

  /** The audit tag is the same for approval and rejection of a request. */
  lemma AuditTagIgnoresDecision(
    s: Store, id: string, t: TxType, userId: string, url: Option<string>, email: string, now: int, notifId: string)
    requires email != ""
    requires HasRequest(s.Requests(t), id)
    requires !HasNotification(s.notifications, notifId)
    ensures var a := UpdateTransactionStatus(s, id, t, Approved, userId, url, Some(email), now, notifId);
      var b := UpdateTransactionStatus(s, id, t, Rejected, userId, url, Some(email), now, notifId);
      a.Ok? && b.Ok? &&
      a.value.logs[|s.logs|].actionType == b.value.logs[|s.logs|].actionType == UpdateActionType(t)
  {
  }

  // ---------------------------------------------------------------------
  // Audit log

  /** `logAction`: appends one entry attributed to the admin actor id. */
  function LogAction(s: Store, actorEmail: string, actionType: string, detail: string, now: int): (r: Store)
    ensures |r.logs| == |s.logs| + 1 && r.logs[..|s.logs|] == s.logs
    ensures r.logs[|s.logs|] == AuditLog("admin", actorEmail, actionType, detail, now)
    ensures r == s.(logs := r.logs)
  {
    s.(logs := s.logs + [AuditLog("admin", actorEmail, actionType, detail, now)])
  }

  const LogLimit := 50

  /** `fetchLogs`: the 50 newest entries, newest first. */
  function FetchLogs(s: Store): (r: seq<AuditLog>)
    ensures |r| <= LogLimit
    ensures |r| == if |s.logs| <= LogLimit then |s.logs| else LogLimit
    ensures SortedDesc(r, LogTime)
    ensures multiset(r) <= multiset(s.logs)
    ensures forall x, y :: x in r && y in s.logs && y.timestamp > x.timestamp ==> y in r
  {
    Newest(s.logs, LogTime, LogLimit)
  }

  /** An entry strictly newer than everything already logged is among the
      fetched entries after it is logged. */
  lemma {:induction false} NewestLogIsFetched(s: Store, email: string, action: string, detail: string, now: int)
    requires forall i :: 0 <= i < |s.logs| ==> s.logs[i].timestamp < now
    ensures AuditLog("admin", email, action, detail, now) in FetchLogs(LogAction(s, email, action, detail, now))
  {
    var s' := LogAction(s, email, action, detail, now);
    var e := AuditLog("admin", email, action, detail, now);
    assert s'.logs[|s.logs|] == e;
    FreshestIsKept(s'.logs, e, LogTime, LogLimit);
  }

  /** The unique newest element survives any positive limit. */
  lemma FreshestIsKept<T(!new)>(s: seq<T>, e: T, key: T -> int, n: nat)
    requires n >= 1
    requires e in s
    requires forall i :: 0 <= i < |s| && s[i] != e ==> key(s[i]) < key(e)
    ensures e in Newest(s, key, n)
  {
    var r := Newest(s, key, n);
    assert r[0] in multiset(r);
    assert r[0] in multiset(s);
    assert r[0] in s;
  }

  // ---------------------------------------------------------------------
  // Chat

  /** A message as the chat view hands it to `sendMessage`; the store adds
      the timestamp. */
  datatype Outgoing = Outgoing(requestId: string, senderId: string, senderEmail: string, text: string, isAdmin: bool)

  function Stamp(m: Outgoing, now: int): (r: ChatMessage)
  {
    ChatMessage(m.requestId, m.senderId, m.senderEmail, m.text, m.isAdmin, now)
  }

  /** `sendMessage`: appends the message with the current time to the chat's
      messages and merges `lastMessage`/`lastSender`/`updatedAt` into the
      chat document, creating it when absent. */
  function SendMessage(s: Store, requestId: string, m: Outgoing, now: int): (r: Store)
    ensures r.Thread(requestId) == s.Thread(requestId) + [Stamp(m, now)]
    ensures forall k :: k != requestId ==> r.Thread(k) == s.Thread(k)
    ensures requestId in r.chats
    ensures r.chats[requestId].lastMessage == m.text && r.chats[requestId].lastSender == Some(m.senderId)
    ensures r.chats[requestId].updatedAt == now
    ensures requestId in s.chats ==>
      r.chats[requestId].(lastMessage := s.chats[requestId].lastMessage, lastSender := s.chats[requestId].lastSender,
        updatedAt := s.chats[requestId].updatedAt) == s.chats[requestId]
    ensures forall k :: k in s.chats && k != requestId ==> k in r.chats && r.chats[k] == s.chats[k]
    ensures requestId !in s.chats ==> r.chats[requestId] == ChatMeta(None, None, m.text, Some(m.senderId), now)
    ensures r.chats == s.chats[requestId := r.chats[requestId]]
    ensures r.messages == s.messages[requestId := s.Thread(requestId) + [Stamp(m, now)]]
    ensures r == s.(messages := r.messages, chats := r.chats)
  {
    var meta :=
      if requestId in s.chats then
        s.chats[requestId].(lastMessage := m.text, lastSender := Some(m.senderId), updatedAt := now)
      else ChatMeta(None, None, m.text, Some(m.senderId), now);
    s.(messages := s.messages[requestId := s.Thread(requestId) + [Stamp(m, now)]],
       chats := s.chats[requestId := meta])
  }

  function AscendingKey(m: ChatMessage): int
  {
    -m.timestamp
  }

  /** `subscribeToChat`'s snapshot: the chat's messages, oldest first. */
  function ChatSnapshot(s: Store, requestId: string): (r: seq<ChatMessage>)
    ensures multiset(r) == multiset(s.Thread(requestId))
    ensures forall i, j :: 0 <= i < j < |r| ==> r[i].timestamp <= r[j].timestamp
  {
    var r := SortDesc(s.Thread(requestId), AscendingKey);
    assert forall i, j :: 0 <= i < j < |r| ==> AscendingKey(r[i]) >= AscendingKey(r[j]);
    r
  }

  /** A sent message shows up in the chat's snapshot, which grows by exactly
      that message; no other chat changes. */
  lemma SentMessageIsDelivered(s: Store, requestId: string, m: Outgoing, now: int)
    ensures var after := ChatSnapshot(SendMessage(s, requestId, m, now), requestId);
      |after| == |ChatSnapshot(s, requestId)| + 1 &&
      Stamp(m, now) in after &&
      multiset(after) == multiset(ChatSnapshot(s, requestId)) + multiset{Stamp(m, now)}
    ensures forall k :: k != requestId ==> ChatSnapshot(SendMessage(s, requestId, m, now), k) == ChatSnapshot(s, k)
  {
    var after := ChatSnapshot(SendMessage(s, requestId, m, now), requestId);
    assert Stamp(m, now) in multiset(after);
  }

  // ---------------------------------------------------------------------
  // Notifications

  /** `createNotification`: appends the notification. */
  function CreateNotification(s: Store, n: AppNotification): (r: Store)
    requires !HasNotification(s.notifications, n.id)
    ensures |r.notifications| == |s.notifications| + 1
    ensures r.notifications[..|s.notifications|] == s.notifications
    ensures r.notifications[|s.notifications|] == n
    ensures r == s.(notifications := r.notifications)
  {
    s.(notifications := s.notifications + [n])
  }

  /** Appending a notification under a fresh id keeps the ids unique. */
  lemma {:induction false} FreshIdKeepsIdsUnique(ns: seq<AppNotification>, n: AppNotification)
    requires UniqueIds(ns)
    requires !HasNotification(ns, n.id)
    ensures UniqueIds(ns + [n])
  {
    var all := ns + [n];
    forall i, j | 0 <= i < j < |all|
      ensures all[i].id != all[j].id
    {
      assert all[i] == ns[i];
      if j < |ns| {
        assert all[j] == ns[j];
      } else {
        assert ns[i].id != n.id;
      }
    }
  }

  /** `createNotification` under a fresh id keeps notification ids unique. */
  lemma {:induction false} CreateNotificationKeepsIdsUnique(s: Store, n: AppNotification)
    requires UniqueIds(s.notifications)
    requires !HasNotification(s.notifications, n.id)
    ensures UniqueIds(CreateNotification(s, n).notifications)
  {
    FreshIdKeepsIdsUnique(s.notifications, n);
  }

  /** A status update under a fresh notification id keeps notification ids
      unique. */
  lemma {:induction false} StatusUpdateKeepsIdsUnique(
    s: Store, id: string, t: TxType, status: Status, userId: string,
    url: Option<string>, email: Option<string>, now: int, notifId: string)
    requires UniqueIds(s.notifications)
    requires !HasNotification(s.notifications, notifId)
    ensures var r := UpdateTransactionStatus(s, id, t, status, userId, url, email, now, notifId);
      r.Ok? ==> UniqueIds(r.value.notifications)
  {
    var r := UpdateTransactionStatus(s, id, t, status, userId, url, email, now, notifId);
    if r.Ok? {
      var n := r.value.notifications[|s.notifications|];
      assert r.value.notifications == s.notifications + [n];
      FreshIdKeepsIdsUnique(s.notifications, n);
    }
  }

  const FeedLimit := 20

  /** The query `where('userId', '==', u)` on notifications. */
  function ForUser(ns: seq<AppNotification>, u: string): (r: seq<AppNotification>)
    ensures |r| <= |ns|
    ensures forall x :: x in r <==> x in ns && x.userId == u
    ensures multiset(r) <= multiset(ns)
  {
    if |ns| == 0 then []
    else
      assert ns == [ns[0]] + ns[1..];
      if ns[0].userId == u then [ns[0]] + ForUser(ns[1..], u)
      else ForUser(ns[1..], u)
  }

  /** `subscribeToNotifications`' snapshot: the user's 20 newest
      notifications, newest first. */
  function NotificationFeed(s: Store, u: string): (r: seq<AppNotification>)
    ensures var n := |ForUser(s.notifications, u)|; |r| == if n <= FeedLimit then n else FeedLimit
    ensures forall i :: 0 <= i < |r| ==> r[i].userId == u && r[i] in s.notifications
    ensures multiset(r) <= multiset(s.notifications)
    ensures SortedDesc(r, NotificationTime)
    ensures forall x, y :: x in r && y in s.notifications && y.userId == u && y.timestamp > x.timestamp ==> y in r
  {
    var mine := ForUser(s.notifications, u);
    var r := Newest(mine, NotificationTime, FeedLimit);
    assert forall i :: 0 <= i < |r| ==> r[i].userId == u && r[i] in s.notifications by {
      forall i | 0 <= i < |r|
        ensures r[i].userId == u && r[i] in s.notifications
      {
        assert r[i] in multiset(r);
        assert r[i] in multiset(mine);
      }
    }
    assert multiset(r) <= multiset(s.notifications);
    assert forall x, y :: x in r && y in s.notifications && y.userId == u && y.timestamp > x.timestamp ==> y in r by {
      forall x, y | x in r && y in s.notifications && y.userId == u && y.timestamp > x.timestamp
        ensures y in r
      {
        assert y in mine && NotificationTime(y) > NotificationTime(x);
      }
    }
    r
  }

  /** A status update's notification reaches the owner's feed, unread, when
      it is newer than every notification the owner already has. */
  lemma {:induction false} StatusNotificationReachesFeed(
    s: Store, id: string, t: TxType, status: Status, userId: string,
    url: Option<string>, email: Option<string>, now: int, notifId: string)
    requires HasRequest(s.Requests(t), id)
    requires !HasNotification(s.notifications, notifId)
    requires forall i :: 0 <= i < |s.notifications| && s.notifications[i].userId == userId ==> s.notifications[i].timestamp < now
    ensures var r := UpdateTransactionStatus(s, id, t, status, userId, url, email, now, notifId);
      r.Ok? &&
      AppNotification(notifId, userId, NotificationTitle(status), NotificationMessage(t, id, status), false, now)
        in NotificationFeed(r.value, userId)
  {
    var e := StatusUpdateAppendsNotification(s, id, t, status, userId, url, email, now, notifId);
    NewestNotificationInFeed(UpdateTransactionStatus(s, id, t, status, userId, url, email, now, notifId).value, s.notifications, e);
  }

  /** A successful status update appends exactly its notification. */
  lemma {:induction false} StatusUpdateAppendsNotification(
    s: Store, id: string, t: TxType, status: Status, userId: string,
    url: Option<string>, email: Option<string>, now: int, notifId: string)
    returns (e: AppNotification)
    requires HasRequest(s.Requests(t), id)
    requires !HasNotification(s.notifications, notifId)
    ensures e == AppNotification(notifId, userId, NotificationTitle(status), NotificationMessage(t, id, status), false, now)
    ensures var r := UpdateTransactionStatus(s, id, t, status, userId, url, email, now, notifId);
      r.Ok? && r.value.notifications == s.notifications + [e]
  {
    var r := UpdateTransactionStatus(s, id, t, status, userId, url, email, now, notifId).value;
    e := AppNotification(notifId, userId, NotificationTitle(status), NotificationMessage(t, id, status), false, now);
    assert r.notifications == r.notifications[..|s.notifications|] + [r.notifications[|s.notifications|]];
  }

  /** A notification newer than all of its recipient's others is in the
      recipient's feed. */
  lemma NewestNotificationInFeed(s: Store, ns: seq<AppNotification>, e: AppNotification)
    requires s.notifications == ns + [e]
    requires forall i :: 0 <= i < |ns| && ns[i].userId == e.userId ==> ns[i].timestamp < e.timestamp
    ensures e in NotificationFeed(s, e.userId)
  {
    var all := ns + [e];
    var mine := ForUser(all, e.userId);
    assert all[|ns|] == e;
    assert e in mine;
    forall i | 0 <= i < |mine| && mine[i] != e
      ensures NotificationTime(mine[i]) < NotificationTime(e)
    {
      assert mine[i] in all;
      var j :| 0 <= j < |all| && all[j] == mine[i];
    }
    FreshestIsKept(mine, e, NotificationTime, FeedLimit);
  }

  function MarkIfId(n: AppNotification, id: string): AppNotification
  {
    if n.id == id then n.(read := true) else n
  }

  function MarkAll(ns: seq<AppNotification>, id: string): (r: seq<AppNotification>)
    ensures |r| == |ns|
    ensures forall i :: 0 <= i < |ns| ==> r[i] == MarkIfId(ns[i], id)
  {
    if |ns| == 0 then [] else [MarkIfId(ns[0], id)] + MarkAll(ns[1..], id)
  }

  /** `markNotificationRead`: sets `read` on the notification with that id;
      the store's update fails when there is none. */
  function MarkNotificationRead(s: Store, id: string): (r: Result<Store>)
    ensures r.Err? <==> !HasNotification(s.notifications, id)
    ensures r.Ok? ==> |r.value.notifications| == |s.notifications|
    ensures r.Ok? ==> forall i :: 0 <= i < |s.notifications| ==>
      r.value.notifications[i] == (if s.notifications[i].id == id then s.notifications[i].(read := true) else s.notifications[i])
    ensures r.Ok? ==> r.value == s.(notifications := r.value.notifications)
  {
    if !HasNotification(s.notifications, id) then Err(NotFound(id))
    else Ok(s.(notifications := MarkAll(s.notifications, id)))
  }

  /** Marking read twice is the same as marking read once. */
  lemma {:induction false} MarkReadIdempotent(s: Store, id: string)
    requires HasNotification(s.notifications, id)
    ensures MarkNotificationRead(s, id).Ok?
    ensures var once := MarkNotificationRead(s, id).value;
      MarkNotificationRead(once, id) == Ok(once)
  {
    var once := MarkNotificationRead(s, id).value;
    var ns := once.notifications;
    assert HasNotification(ns, id) by {
      var i :| 0 <= i < |s.notifications| && s.notifications[i].id == id;
      assert ns[i].id == id;
    }
    assert MarkAll(ns, id) == ns by {
      forall k | 0 <= k < |ns|
        ensures MarkAll(ns, id)[k] == ns[k]
      {
        assert ns[k] == MarkIfId(s.notifications[k], id);
      }
    }
  }

  /** Marking read changes no id, so unique ids stay unique. */
  lemma {:induction false} MarkReadKeepsIdsUnique(s: Store, id: string)
    requires UniqueIds(s.notifications)
    ensures MarkNotificationRead(s, id).Ok? ==> UniqueIds(MarkNotificationRead(s, id).value.notifications)
  {
    if MarkNotificationRead(s, id).Ok? {
      var ns := MarkNotificationRead(s, id).value.notifications;
      forall i, j | 0 <= i < j < |ns|
        ensures ns[i].id != ns[j].id
      {
        assert ns[i].id == s.notifications[i].id && ns[j].id == s.notifications[j].id;
      }
    }
  }

  lemma {:induction false} ForUserMarkAll(ns: seq<AppNotification>, id: string, u: string)
    ensures ForUser(MarkAll(ns, id), u) == MarkAll(ForUser(ns, u), id)
  {
    if |ns| > 0 {
      ForUserMarkAll(ns[1..], id, u);
      assert MarkAll(ns, id) == [MarkIfId(ns[0], id)] + MarkAll(ns[1..], id);
      assert MarkAll(ns, id)[1..] == MarkAll(ns[1..], id);
      if ns[0].userId == u {
        assert MarkAll([ns[0]] + ForUser(ns[1..], u), id) == [MarkIfId(ns[0], id)] + MarkAll(ForUser(ns[1..], u), id);
      }
    }
  }

  function Marker(id: string): AppNotification -> AppNotification
  {
    n => MarkIfId(n, id)
  }

  lemma {:induction false} MarkAllIsMap(ns: seq<AppNotification>, id: string)
    ensures MarkAll(ns, id) == Map(Marker(id), ns)
  {
    if |ns| > 0 {
      MarkAllIsMap(ns[1..], id);
    }
  }

  /** Marking read leaves the feed's membership and order alone: the new
      feed is the old feed with that notification's flag set. */
  lemma {:induction false} MarkReadFeed(s: Store, id: string, u: string)
    requires HasNotification(s.notifications, id)
    ensures NotificationFeed(MarkNotificationRead(s, id).value, u) == MarkAll(NotificationFeed(s, u), id)
  {
    var s' := MarkNotificationRead(s, id).value;
    var f := Marker(id);
    var mine := ForUser(s.notifications, u);
    var sorted := SortDesc(mine, NotificationTime);
    assert ForUser(s'.notifications, u) == Map(f, mine) by {
      ForUserMarkAll(s.notifications, id, u);
      MarkAllIsMap(mine, id);
    }
    assert SortDesc(Map(f, mine), NotificationTime) == Map(f, sorted) by {
      MarkerKeepsTime(id);
      SortMapCommutes(f, mine, NotificationTime);
    }
    assert Take(Map(f, sorted), FeedLimit) == MarkAll(Take(sorted, FeedLimit), id) by {
      TakeMapCommutes(f, sorted, FeedLimit);
      MarkAllIsMap(Take(sorted, FeedLimit), id);
    }
    FeedIsSortedPrefix(s, u);
    FeedIsSortedPrefix(s', u);
  }

  lemma MarkerKeepsTime(id: string)
    ensures forall y :: NotificationTime(Marker(id)(y)) == NotificationTime(y)
  {
  }

  lemma {:induction false} FeedIsSortedPrefix(s: Store, u: string)
    ensures NotificationFeed(s, u) == Take(SortDesc(ForUser(s.notifications, u), NotificationTime), FeedLimit)
  {
  }
}

=== FILE: layout.dfy ===
/** The application shell: what it keeps about the signed-in user, the
    unread badge on the bell, and what a click on a notification does. */
module Layout {
  import opened Types
  import opened Db

  /** The shell's state: the current user, whether the admin link shows, the
      live notification feed and whether the panel is open. */
  datatype Session = Session(user: Option<User>, isAdmin: bool, feed: seq<AppNotification>, showNotifs: bool)

  /** The auth listener: a signed-in user with an email gets the admin check
      and their feed; anyone else (signed out, or without an email) gets no
      admin link and an empty feed. */
  function OnAuthChange(s: Store, current: Option<User>, prev: Session): (r: Session)
    ensures r.user == current && r.showNotifs == prev.showNotifs
    ensures current.Some? && Truthy(current.value.email) ==>
      r.isAdmin == CheckIsAdmin(s.admins, current.value.email.value) &&
      r.feed == NotificationFeed(s, current.value.uid)
    ensures !(current.Some? && Truthy(current.value.email)) ==> !r.isAdmin && r.feed == []
    ensures r.isAdmin ==> current.Some? && CheckIsAdmin(s.admins, current.value.email.value)
  {
    if current.Some? && Truthy(current.value.email) then
      prev.(user := current, isAdmin := CheckIsAdmin(s.admins, current.value.email.value),
            feed := NotificationFeed(s, current.value.uid))
    else prev.(user := current, isAdmin := false, feed := [])
  }

  /** `notifications.filter(n => !n.read).length`. */
  function UnreadCount(feed: seq<AppNotification>): (r: nat)
    ensures r <= |feed|
    ensures r == 0 <==> forall i :: 0 <= i < |feed| ==> feed[i].read
  {
    if |feed| == 0 then 0
    else (if feed[0].read then 0 else 1) + UnreadCount(feed[1..])
  }

  /** Appending one notification raises the unread count by one exactly
      when it is unread. */
  lemma {:induction false} UnreadSnoc(p: seq<AppNotification>, x: AppNotification)
    ensures UnreadCount(p + [x]) == UnreadCount(p) + (if x.read then 0 else 1)
  {
    if |p| == 0 {
      assert p + [x] == [x];
      assert [x][1..] == [];
    } else {
      assert (p + [x])[1..] == p[1..] + [x];
      UnreadSnoc(p[1..], x);
    }
  }

  /** The badge number counts the feed positions holding an unread
      notification. */
  lemma {:induction false} UnreadCountIsNumberUnread(feed: seq<AppNotification>)
    ensures UnreadCount(feed) == |set i | 0 <= i < |feed| && !feed[i].read|
  {
    var all := set i | 0 <= i < |feed| && !feed[i].read;
    if |feed| == 0 {
      assert all == {};
    } else {
      var p, x := feed[..|feed| - 1], feed[|feed| - 1];
      assert feed == p + [x];
      UnreadCountIsNumberUnread(p);
      UnreadSnoc(p, x);
      var front := set i | 0 <= i < |p| && !p[i].read;
      if x.read {
        assert all == front;
      } else {
        assert all == front + {|p|};
        assert |p| !in front;
      }
    }
  }

  /** The badge shows exactly when some notification in the feed is unread. */
  function ShowBadge(feed: seq<AppNotification>): (r: bool)
    ensures r <==> exists i :: 0 <= i < |feed| && !feed[i].read
  {
    UnreadCount(feed) > 0
  }

  /** Unread entries carrying this id. */
  function UnreadWithId(feed: seq<AppNotification>, id: string): (r: nat)
    ensures r <= UnreadCount(feed)
  {
    if |feed| == 0 then 0
    else (if !feed[0].read && feed[0].id == id then 1 else 0) + UnreadWithId(feed[1..], id)
  }

  /** Marking an id read lowers the unread count by the unread entries with
      that id, and by nothing else. */
  lemma {:induction false} MarkLowersUnread(feed: seq<AppNotification>, id: string)
    ensures UnreadCount(MarkAll(feed, id)) == UnreadCount(feed) - UnreadWithId(feed, id)
  {
    if |feed| > 0 {
      MarkLowersUnread(feed[1..], id);
      assert MarkAll(feed, id)[1..] == MarkAll(feed[1..], id);
    }
  }

  lemma {:induction false} AbsentIdCountsZero(feed: seq<AppNotification>, id: string)
    requires forall i :: 0 <= i < |feed| ==> feed[i].id != id
    ensures UnreadWithId(feed, id) == 0
  {
    if |feed| > 0 {
      AbsentIdCountsZero(feed[1..], id);
    }
  }

  /** With unique ids, an unread notification is the only unread entry with
      its id. */
  lemma {:induction false} UniqueUnreadCountsOne(feed: seq<AppNotification>, n: AppNotification)
    requires UniqueIds(feed)
    requires n in feed && !n.read
    ensures UnreadWithId(feed, n.id) == 1
  {
    if feed[0] == n {
      AbsentIdCountsZero(feed[1..], n.id);
    } else {
      var k :| 0 <= k < |feed| && feed[k] == n;
      assert feed[0].id != n.id;
      assert feed[1..][k - 1] == n;
      UniqueUnreadCountsOne(feed[1..], n);
    }
  }

  /** An element occurring at two positions occurs at least twice. */
  lemma {:induction false} TwiceInMultiset(f: seq<AppNotification>, i: int, j: int)
    requires 0 <= i < j < |f| && f[i] == f[j]
    ensures multiset(f)[f[i]] >= 2
  {
    assert f == f[..j] + f[j..];
    assert f[..j][i] == f[i];
    assert f[j..][0] == f[j];
    assert f[i] in multiset(f[..j]) && f[j] in multiset(f[j..]);
  }

  /** With unique ids no notification occurs twice. */
  lemma {:induction false} UniqueOccursOnce(ns: seq<AppNotification>, x: AppNotification)
    requires UniqueIds(ns)
    ensures multiset(ns)[x] <= 1
  {
    if |ns| > 0 {
      assert ns == [ns[0]] + ns[1..];
      UniqueOccursOnce(ns[1..], x);
      if ns[0] == x {
        assert x !in ns[1..];
        assert multiset(ns[1..])[x] == 0;
      }
    }
  }

  /** Every part of a store whose notification ids are unique has unique
      ids too. */
  lemma {:induction false} UniqueIdsOfSub(f: seq<AppNotification>, ns: seq<AppNotification>)
    requires UniqueIds(ns)
    requires multiset(f) <= multiset(ns)
    ensures UniqueIds(f)
  {
    forall i, j | 0 <= i < j < |f|
      ensures f[i].id != f[j].id
    {
      if f[i].id == f[j].id {
        assert f[i] in multiset(ns) && f[j] in multiset(ns);
        var a :| 0 <= a < |ns| && ns[a] == f[i];
        var b :| 0 <= b < |ns| && ns[b] == f[j];
        assert a == b;
        TwiceInMultiset(f, i, j);
        UniqueOccursOnce(ns, f[i]);
        assert false;
      }
    }
  }

  datatype ClickOutcome = ClickOutcome(store: Store, showNotifs: bool)

  /** `handleNotifClick`: an unread notification is marked read first; the
      panel closes after that. A failed update throws before the panel is
      closed, so it stays as it was; a read notification only closes it. */
  function HandleNotifClick(s: Store, showNotifs: bool, n: AppNotification): (r: ClickOutcome)
    ensures n.read ==> r == ClickOutcome(s, false)
    ensures !n.read && !HasNotification(s.notifications, n.id) ==> r == ClickOutcome(s, showNotifs)
    ensures !n.read && HasNotification(s.notifications, n.id) ==>
      !r.showNotifs && Ok(r.store) == MarkNotificationRead(s, n.id)
  {
    if n.read then ClickOutcome(s, false)
    else
      match MarkNotificationRead(s, n.id)
      case Err(_) => ClickOutcome(s, showNotifs)
      case Ok(s') => ClickOutcome(s', false)
  }

  /** Clicking an unread notification in one's feed lowers the badge count
      by exactly one, when the store's notification ids are unique. */
  lemma {:induction false} ClickLowersBadgeByOne(s: Store, showNotifs: bool, u: string, n: AppNotification)
    requires UniqueIds(s.notifications)
    requires n in NotificationFeed(s, u) && !n.read
    ensures UnreadCount(NotificationFeed(HandleNotifClick(s, showNotifs, n).store, u)) ==
      UnreadCount(NotificationFeed(s, u)) - 1
  {
    var feed := NotificationFeed(s, u);
    var k :| 0 <= k < |feed| && feed[k] == n;
    var j :| 0 <= j < |s.notifications| && s.notifications[j] == n;
    assert HasNotification(s.notifications, n.id);
    MarkReadFeed(s, n.id, u);
    MarkLowersUnread(feed, n.id);
    UniqueIdsOfSub(feed, s.notifications);
    UniqueUnreadCountsOne(feed, n);
  }
}

=== FILE: order_form.dfy ===
/** What the buy and sell forms share: picking the coin, the displayed
    total, the outcomes of a submission and the two writes a successful
    submission makes. */
module OrderForm {
  import opened Types
  import opened Db

  /** `coins.find(c => c.id === id)`: the first catalog coin with that id. */
  function SelectCoin(catalog: seq<Coin>, id: string): (r: Option<Coin>)
    ensures r.None? <==> forall i :: 0 <= i < |catalog| ==> catalog[i].id != id
    ensures r.Some? ==>
      r.value.id == id &&
      exists i :: 0 <= i < |catalog| && catalog[i] == r.value && forall j :: 0 <= j < i ==> catalog[j].id != id
  {
    if |catalog| == 0 then None
    else if catalog[0].id == id then Some(catalog[0])
    else
      var r := SelectCoin(catalog[1..], id);
      if r.Some? then
        var i :| 0 <= i < |catalog[1..]| && catalog[1..][i] == r.value && forall j :: 0 <= j < i ==> catalog[1..][j].id != id;
        assert catalog[i + 1] == r.value;
        assert forall j :: 0 <= j < i + 1 ==> catalog[j].id != id by {
          forall j | 0 <= j < i + 1
            ensures catalog[j].id != id
          {
            if j > 0 {
              assert catalog[j] == catalog[1..][j - 1];
            }
          }
        }
        r
      else r
  }

  /** The coin preselected on load: the one passed in navigation state, else
      the first catalog coin, else the selection is left as it was. */
  function InitialCoinId(stateCoin: Option<Coin>, catalog: seq<Coin>, current: string): string
  {
    if stateCoin.Some? then stateCoin.value.id
    else if |catalog| > 0 then catalog[0].id
    else current
  }

  /** Without navigation state the preselected coin is the first catalog
      coin; with it, some catalog coin is selected whenever the passed coin's
      id is still in the catalog, and none otherwise. */
  lemma {:induction false} InitialSelection(stateCoin: Option<Coin>, catalog: seq<Coin>, current: string)
    ensures stateCoin.None? && |catalog| > 0 ==>
      SelectCoin(catalog, InitialCoinId(stateCoin, catalog, current)) == Some(catalog[0])
    ensures stateCoin.Some? ==>
      (SelectCoin(catalog, InitialCoinId(stateCoin, catalog, current)).Some? <==>
        exists i :: 0 <= i < |catalog| && catalog[i].id == stateCoin.value.id)
  {
  }

  /** The total shown on the form: amount times the coin's price once a coin
      is selected and the amount is positive, else zero. */
  function DisplayTotal(coin: Option<Coin>, amount: real): real
  {
    if coin.Some? && amount > 0.0 then amount * coin.value.price else 0.0
  }

  /** Where a submission ends. */
  datatype Outcome = ToLogin | ShowError(message: string) | NoAction | ToDashboard

  datatype Submission = Submission(store: Store, outcome: Outcome)

  /** A fresh pending request for the signed-in user, snapshotting the
      selected coin's id, symbol and price and the displayed total. A missing
      email is stored as the empty string. */
  function NewRequest(kind: TxType, user: User, coin: Coin, amount: real, url: string, details: Details, now: int): (d: RequestData)
    ensures d.kind == kind && d.status == Pending && d.adminScreenshotURL == None
    ensures d.userId == user.uid && d.userEmail == user.email.GetOr("") && d.timestamp == now
    ensures d.userScreenshotURL == url
    ensures d.coinId == coin.id && d.coinSymbol == coin.symbol && d.coinPriceAtRequest == coin.price
    ensures d.amount == amount && d.totalPrice == DisplayTotal(Some(coin), amount)
  {
    RequestData(kind, user.uid, user.email.GetOr(""), coin.id, coin.symbol, coin.price, amount,
      DisplayTotal(Some(coin), amount), url, None, Pending, now, details)
  }

  /** The stored total is the price snapshot times the amount for a positive
      amount, and zero otherwise. */
  lemma {:induction false} TotalMatchesSnapshot(kind: TxType, user: User, coin: Coin, amount: real, url: string, details: Details, now: int)
    ensures var d := NewRequest(kind, user, coin, amount, url, details, now);
      (amount > 0.0 ==> d.totalPrice == d.amount * d.coinPriceAtRequest) &&
      (amount <= 0.0 ==> d.totalPrice == 0.0)
  {
  }

  /** A successful submission's writes: the request (with its chat opened),
      then the audit entry. */
  function Place(s: Store, d: RequestData, id: string, actorEmail: string, action: string, detail: string, now: int): (r: Store)
    requires RequestIdFree(s, d.kind, id)
    ensures r.Requests(d.kind) == s.Requests(d.kind) + [Request(id, d)]
    ensures r.Requests(Other(d.kind)) == s.Requests(Other(d.kind))
    ensures r.logs == s.logs + [AuditLog("admin", actorEmail, action, detail, now)]
    ensures id in r.chats && r.chats[id] == OpenedChat(id, d.userId, now)
    ensures r.chats == s.chats[id := OpenedChat(id, d.userId, now)]
    ensures r.notifications == s.notifications && r.messages == s.messages && r.admins == s.admins
    ensures r.settings == s.settings
  {
    LogAction(CreateTransaction(s, d.kind, d, id, now), actorEmail, action, detail, now)
  }
}

=== FILE: sell.dfy ===
/** The sell form's submission: the proof of transfer is optional, and the
    pending sell request carries the payout wallet. */
module SellPage {
  import opened Types
  import opened Db
  import opened OrderForm

  /** Stored in place of a proof URL when no file was attached. */
  const NoProof := "N/A"

  datatype SellForm = SellForm(
    selectedCoinId: string,
    amount: real,
    walletAddress: string,
    file: Option<ProofFile>)

  function SellDetail(amount: real, symbol: string, show: real -> string): string
  {
    "Selling " + show(amount) + " " + symbol
  }

  /** The proof URL stored with the request: the uploaded URL when a file
      was attached and the upload returned a non-empty URL, `N/A` otherwise. */
  function StoredProof(file: Option<ProofFile>, upload: UploadResult): (r: string)
    requires file.Some? ==> upload.Uploaded?
    ensures r != ""
    ensures file.None? ==> r == NoProof
    ensures file.Some? && upload.url != "" ==> r == upload.url
    ensures file.Some? && upload.url == "" ==> r == NoProof
    ensures r != NoProof ==> file.Some? && r == upload.url
  {
    var url := if file.Some? then upload.url else "";
    if url != "" then url else NoProof
  }

  /** What a successful submission writes: exactly one pending sell
      request appended under the fresh id, for the signed-in user, with the
      coin snapshot, the stored proof, the payout wallet and the total, and
      one `CREATE_SELL` audit entry by the user. */
  predicate SellCreated(
    s: Store, after: Store, newId: string, form: SellForm, u: User, coin: Coin, upload: UploadResult,
    now: int, show: real -> string)
    requires form.file.Some? ==> upload.Uploaded?
  {
    |after.sellRequests| == |s.sellRequests| + 1 &&
    after.sellRequests[..|s.sellRequests|] == s.sellRequests &&
    after.buyRequests == s.buyRequests &&
    var d := after.sellRequests[|s.sellRequests|].data;
    after.sellRequests[|s.sellRequests|].id == newId &&
    d.kind == Sell && WellTagged(d) && d.status == Pending && d.userId == u.uid &&
    d.userEmail == u.email.GetOr("") && d.timestamp == now && d.amount == form.amount &&
    d.coinId == coin.id && d.coinPriceAtRequest == coin.price && d.coinSymbol == coin.symbol &&
    d.userScreenshotURL == StoredProof(form.file, upload) && d.adminScreenshotURL == None &&
    d.details == SellFields(form.walletAddress) &&
    d.totalPrice == (if form.amount > 0.0 then form.amount * coin.price else 0.0) &&
    after.logs == s.logs + [AuditLog("admin", u.email.GetOr(""), "CREATE_SELL", SellDetail(form.amount, coin.symbol, show), now)] &&
    newId in after.chats && after.chats[newId] == OpenedChat(newId, u.uid, now) &&
    after.chats == s.chats[newId := OpenedChat(newId, u.uid, now)] &&
    after.notifications == s.notifications && after.messages == s.messages && after.admins == s.admins &&
    after.settings == s.settings
  }

  /** The writes of a submission that passed every check. */
  function AcceptSell(
    s: Store, form: SellForm, u: User, coin: Coin, upload: UploadResult,
    now: int, newId: string, show: real -> string): (r: Store)
    requires RequestIdFree(s, Sell, newId)
    requires form.file.Some? ==> upload.Uploaded?
    ensures SellCreated(s, r, newId, form, u, coin, upload, now, show)
  {
    var d := NewRequest(Sell, u, coin, form.amount, StoredProof(form.file, upload), SellFields(form.walletAddress), now);
    var r := Place(s, d, newId, u.email.GetOr(""), "CREATE_SELL", SellDetail(form.amount, coin.symbol, show), now);
    assert r.sellRequests == s.sellRequests + [Request(newId, d)] && r.buyRequests == s.buyRequests by {
      assert r.Requests(Sell) == s.Requests(Sell) + [Request(newId, d)];
      assert r.Requests(Other(Sell)) == s.Requests(Other(Sell));
    }
    assert r.sellRequests[|s.sellRequests|] == Request(newId, d);
    assert r.sellRequests[..|s.sellRequests|] == s.sellRequests;
    r
  }

  /** `handleSubmit`: no user sends to login; no selected coin does nothing;
      a failed upload (only attempted when a file is attached) shows the
      upload error. Otherwise the request is created, followed by its
      `CREATE_SELL` audit entry, and the user is sent to the dashboard. Every
      early exit leaves the store untouched. */
  function SubmitSell(
    s: Store, catalog: seq<Coin>, form: SellForm, user: Option<User>, upload: UploadResult,
    now: int, newId: string, show: real -> string): (r: Submission)
    requires RequestIdFree(s, Sell, newId)
    ensures user.None? ==> r == Submission(s, ToLogin)
    ensures user.Some? && SelectCoin(catalog, form.selectedCoinId).None? ==> r == Submission(s, NoAction)
    ensures user.Some? && SelectCoin(catalog, form.selectedCoinId).Some? && form.file.Some? && upload.UploadFailed? ==>
      r == Submission(s, ShowError(UploadFailureText))
    ensures r.outcome == ToDashboard <==>
      user.Some? && SelectCoin(catalog, form.selectedCoinId).Some? && (form.file.None? || upload.Uploaded?)
    ensures r.outcome == ToDashboard ==>
      SelectCoin(catalog, form.selectedCoinId).value.id == form.selectedCoinId &&
      SellCreated(s, r.store, newId, form, user.value, SelectCoin(catalog, form.selectedCoinId).value, upload, now, show)
    ensures r.outcome != ToDashboard ==> r.store == s
  {
    if user.None? then Submission(s, ToLogin)
    else
      match SelectCoin(catalog, form.selectedCoinId)
      case None => Submission(s, NoAction)
      case Some(coin) =>
        if form.file.Some? && upload.UploadFailed? then Submission(s, ShowError(UploadFailureText))
        else Submission(AcceptSell(s, form, user.value, coin, upload, now, newId, show), ToDashboard)
  }

  /** Without a file the upload is never attempted: the outcome does not
      depend on what the image host would have answered. */
  lemma {:induction false} NoFileNoUpload(
    s: Store, catalog: seq<Coin>, form: SellForm, user: Option<User>, a: UploadResult, b: UploadResult,
    now: int, newId: string, show: real -> string)
    requires RequestIdFree(s, Sell, newId)
    requires form.file.None?
    ensures SubmitSell(s, catalog, form, user, a, now, newId, show) == SubmitSell(s, catalog, form, user, b, now, newId, show)
  {
  }
}

=== FILE: seqs.dfy ===
/** Generic sequence operations shared by every listing in the model: the
    document store answers queries by ordering a collection by a numeric key
    and cutting it to a limit; the CSV export joins cells and lines
    with a separator. */
module Seqs {

  /** Applies `f` to every element, keeping the order. */
  function Map<T, U>(f: T -> U, s: seq<T>): (r: seq<U>)
    ensures |r| == |s|
    ensures forall i :: 0 <= i < |s| ==> r[i] == f(s[i])
  {
    if |s| == 0 then [] else [f(s[0])] + Map(f, s[1..])
  }

  /** Number of elements that satisfy `p`. */
  function Count<T>(s: seq<T>, p: T -> bool): (n: nat)
    ensures n <= |s|
    ensures n == 0 <==> forall i :: 0 <= i < |s| ==> !p(s[i])
  {
    if |s| == 0 then 0
    else (if p(s[0]) then 1 else 0) + Count(s[1..], p)
  }

  /** The first `n` elements, or all of them when there are fewer. */
  function Take<T>(s: seq<T>, n: nat): (r: seq<T>)
    ensures |r| == if |s| <= n then |s| else n
    ensures r == s[..|r|]
  {
    if |s| <= n then s else s[..n]
  }

  /** Non-increasing order by `key`: the newest-first order of every listing. */
  predicate SortedDesc<T>(s: seq<T>, key: T -> int)
  {
    forall i, j :: 0 <= i < j < |s| ==> key(s[i]) >= key(s[j])
  }

  /** Every element of `s` has a key of at most `bound`. */
  predicate AllAtMost<T>(s: seq<T>, key: T -> int, bound: int)
  {
    forall i :: 0 <= i < |s| ==> key(s[i]) <= bound
  }

  lemma AllAtMostOfMultiset<T>(s: seq<T>, t: seq<T>, key: T -> int, bound: int)
    requires multiset(s) <= multiset(t)
    requires AllAtMost(t, key, bound)
    ensures AllAtMost(s, key, bound)
  {
    forall i | 0 <= i < |s|
      ensures key(s[i]) <= bound
    {
      assert s[i] in multiset(s);
      assert s[i] in multiset(t);
      assert s[i] in t;
      var j :| 0 <= j < |t| && t[j] == s[i];
    }
  }

  /** Places `x` into a sorted sequence so that it stays sorted. */
  function Insert<T>(x: T, s: seq<T>, key: T -> int): (r: seq<T>)
    requires SortedDesc(s, key)
    ensures |r| == |s| + 1
    ensures multiset(r) == multiset(s) + multiset{x}
    ensures SortedDesc(r, key)
  {
    if |s| == 0 then [x]
    else if key(x) >= key(s[0]) then
      assert AllAtMost(s, key, key(x)) by {
        assert forall j :: 0 < j < |s| ==> key(s[j]) <= key(s[0]);
      }
      ConsSorted(x, s, key);
      [x] + s
    else
      var tail := Insert(x, s[1..], key);
      assert AllAtMost(tail, key, key(s[0])) by {
        assert AllAtMost(s[1..] + [x], key, key(s[0]));
        assert multiset(tail) == multiset(s[1..] + [x]);
        AllAtMostOfMultiset(tail, s[1..] + [x], key, key(s[0]));
      }
      ConsSorted(s[0], tail, key);
      assert multiset([s[0]] + tail) == multiset(s) + multiset{x} by {
        assert s == [s[0]] + s[1..];
      }
      [s[0]] + tail
  }

  lemma ConsSorted<T>(h: T, t: seq<T>, key: T -> int)
    requires SortedDesc(t, key)
    requires AllAtMost(t, key, key(h))
    ensures SortedDesc([h] + t, key)
  {
    var r := [h] + t;
    forall i, j | 0 <= i < j < |r|
      ensures key(r[i]) >= key(r[j])
    {
      assert r[j] == t[j - 1];
      if i > 0 {
        assert r[i] == t[i - 1];
      }
    }
  }

  /** Insertion sort into newest-first order. The order among equal keys is
      not part of any contract. */
  function SortDesc<T>(s: seq<T>, key: T -> int): (r: seq<T>)
    ensures |r| == |s|
    ensures multiset(r) == multiset(s)
    ensures SortedDesc(r, key)
  {
    if |s| == 0 then []
    else
      assert s == [s[0]] + s[1..];
      Insert(s[0], SortDesc(s[1..], key), key)
  }

  /** Same multiset means same membership. */
  lemma SameElements<T(!new)>(r: seq<T>, s: seq<T>)
    requires multiset(r) == multiset(s)
    ensures forall x :: x in r <==> x in s
  {
    forall x
      ensures x in r <==> x in s
    {
      assert x in r <==> x in multiset(r);
      assert x in s <==> x in multiset(s);
    }
  }

  /** A prefix of a sorted sequence holds its largest keys: every element cut
      off by `Take` is no newer than any element kept. */
  lemma {:induction false} TakeKeepsNewest<T>(s: seq<T>, n: nat, key: T -> int)
    requires SortedDesc(s, key)
    ensures SortedDesc(Take(s, n), key)
    ensures forall i, j :: 0 <= i < |Take(s, n)| <= j < |s| ==> key(Take(s, n)[i]) >= key(s[j])
  {
  }

  /** The `n` entries with the largest keys, newest first: a query ordered by
      a descending key and cut to a limit. Whatever is left out is no newer
      than anything returned. */
  function Newest<T(!new)>(s: seq<T>, key: T -> int, n: nat): (r: seq<T>)
    ensures |r| == if |s| <= n then |s| else n
    ensures SortedDesc(r, key)
    ensures multiset(r) <= multiset(s)
    ensures |s| <= n ==> multiset(r) == multiset(s)
    ensures forall x, y :: x in r && y in s && key(y) > key(x) ==> y in r
  {
    var all := SortDesc(s, key);
    TakeKeepsNewest(all, n, key);
    NewestIsTop(all, s, n, key);
    assert multiset(all[..|Take(all, n)|]) <= multiset(all) by {
      assert all == all[..|Take(all, n)|] + all[|Take(all, n)|..];
    }
    Take(all, n)
  }

  lemma NewestIsTop<T(!new)>(all: seq<T>, s: seq<T>, n: nat, key: T -> int)
    requires SortedDesc(all, key)
    requires multiset(all) == multiset(s)
    ensures forall x, y :: x in Take(all, n) && y in s && key(y) > key(x) ==> y in Take(all, n)
  {
    var r := Take(all, n);
    forall x, y | x in r && y in s && key(y) > key(x)
      ensures y in r
    {
      assert y in multiset(s);
      assert y in all;
      var j :| 0 <= j < |all| && all[j] == y;
      var i :| 0 <= i < |r| && r[i] == x;
      assert r[j] == y;
    }
  }

  /** A key-preserving map keeps a sequence sorted. */
  lemma MapKeepsSorted<T>(f: T -> T, s: seq<T>, key: T -> int)
    requires forall y :: key(f(y)) == key(y)
    requires SortedDesc(s, key)
    ensures SortedDesc(Map(f, s), key)
  {
    var m := Map(f, s);
    forall i, j | 0 <= i < j < |m|
      ensures key(m[i]) >= key(m[j])
    {
      assert key(m[i]) == key(s[i]) && key(m[j]) == key(s[j]);
    }
  }

  lemma MapCons<T>(f: T -> T, x: T, s: seq<T>)
    ensures Map(f, [x] + s) == [f(x)] + Map(f, s)
  {
    assert ([x] + s)[1..] == s;
  }

  /** Mapping a key-preserving function commutes with insertion. */
  lemma {:induction false} InsertMapCommutes<T>(f: T -> T, x: T, s: seq<T>, key: T -> int)
    requires forall y :: key(f(y)) == key(y)
    requires SortedDesc(s, key)
    ensures SortedDesc(Map(f, s), key)
    ensures Insert(f(x), Map(f, s), key) == Map(f, Insert(x, s, key))
  {
    MapKeepsSorted(f, s, key);
    if |s| == 0 {
    } else {
      var m := Map(f, s);
      assert s == [s[0]] + s[1..];
      MapCons(f, s[0], s[1..]);
      assert m[0] == f(s[0]) && m[1..] == Map(f, s[1..]);
      if key(x) >= key(s[0]) {
        MapCons(f, x, s);
      } else {
        InsertMapCommutes(f, x, s[1..], key);
        var tail := Insert(x, s[1..], key);
        MapCons(f, s[0], tail);
      }
    }
  }

  /** Sorting by a key commutes with any map that preserves the key: the
      order of the output depends only on keys and input order. */
  lemma {:induction false} SortMapCommutes<T>(f: T -> T, s: seq<T>, key: T -> int)
    requires forall y :: key(f(y)) == key(y)
    ensures SortDesc(Map(f, s), key) == Map(f, SortDesc(s, key))
  {
    if |s| == 0 {
    } else {
      SortMapCommutes(f, s[1..], key);
      assert Map(f, s)[0] == f(s[0]);
      assert Map(f, s)[1..] == Map(f, s[1..]);
      InsertMapCommutes(f, s[0], SortDesc(s[1..], key), key);
    }
  }

  lemma TakeMapCommutes<T>(f: T -> T, s: seq<T>, n: nat)
    ensures Take(Map(f, s), n) == Map(f, Take(s, n))
  {
  }

  /** Joins the parts with `sep` between consecutive parts (JavaScript's
      `Array.prototype.join`). */
  function Join(parts: seq<string>, sep: char): (r: string)
    ensures |parts| == 1 ==> r == parts[0]
    ensures |parts| == 0 ==> r == ""
  {
    if |parts| == 0 then ""
    else if |parts| == 1 then parts[0]
    else parts[0] + [sep] + Join(parts[1..], sep)
  }

  /** Splits at every `sep` (JavaScript's `String.prototype.split` with a
      one-character separator): always at least one part. */
  function Split(s: string, sep: char): (r: seq<string>)
    ensures |r| >= 1
    ensures forall i :: 0 <= i < |r| ==> sep !in r[i]
    decreases |s|
  {
    if sep !in s then [s]
    else
      var k := IndexOf(s, sep);
      [s[..k]] + Split(s[k + 1..], sep)
  }

  /** Position of the first occurrence of `c`. */
  function IndexOf(s: string, c: char): (k: nat)
    requires c in s
    ensures k < |s| && s[k] == c
    ensures c !in s[..k]
  {
    if s[0] == c then 0 else 1 + IndexOf(s[1..], c)
  }

  /** The part before the first `sep`, or all of `s` (`s.split(sep)[0]`). */
  function Before(s: string, sep: char): (r: string)
    ensures sep !in r
    ensures r <= s
    ensures sep in s ==> |r| < |s| && s[|r|] == sep
    ensures sep !in s ==> r == s
  {
    Split(s, sep)[0]
  }

  /** Splitting undoes joining when no part contains the separator. */
  lemma {:induction false} SplitJoin(parts: seq<string>, sep: char)
    requires |parts| >= 1
    requires forall i :: 0 <= i < |parts| ==> sep !in parts[i]
    ensures Split(Join(parts, sep), sep) == parts
  {
    if |parts| == 1 {
    } else {
      var rest := Join(parts[1..], sep);
      var s := parts[0] + [sep] + rest;
      IndexOfAfter(parts[0], rest, sep);
      var k := IndexOf(s, sep);
      assert s[..k] == parts[0];
      assert s[k + 1..] == rest;
      SplitJoin(parts[1..], sep);
    }
  }

  /** The first separator of `a + [c] + b` is the one after `a` when `a` has none. */
  lemma {:induction false} IndexOfAfter(a: string, b: string, c: char)
    requires c !in a
    ensures c in a + [c] + b
    ensures IndexOf(a + [c] + b, c) == |a|
  {
    assert (a + [c] + b)[|a|] == c;
    if |a| > 0 {
      assert (a + [c] + b)[1..] == a[1..] + [c] + b;
      IndexOfAfter(a[1..], b, c);
    }
  }
}

=== FILE: types.dfy ===
/** The records of the transaction-request lifecycle: buy and sell requests,
    audit entries, chat messages and notifications, plus the small value types
    (status, request type, user identity, upload outcome) the pages pass
    around. Firestore documents are immutable values here; the store that
    holds them is in module `Db`. */
module Types {

  datatype Option<T> = None | Some(value: T) {
    function GetOr(default: T): T {
      match this
      case Some(v) => v
      case None => default
    }
  }

  /** A request's status is exactly one of these three values. */
  datatype Status = Pending | Approved | Rejected

  /** The string stored in the `status` field. */
  function StatusText(s: Status): (r: string)
  {
    match s
    case Pending => "pending"
    case Approved => "approved"
    case Rejected => "rejected"
  }

  function ParseStatus(text: string): Option<Status>
  {
    if text == "pending" then Some(Pending)
    else if text == "approved" then Some(Approved)
    else if text == "rejected" then Some(Rejected)
    else None
  }

  /** The stored status string identifies the status: no two statuses share a
      string, and reading back the string gives the status. */
  lemma StatusTextRoundTrip(s: Status, t: Status)
    ensures ParseStatus(StatusText(s)) == Some(s)
    ensures StatusText(s) == StatusText(t) ==> s == t
  {
  }

  /** The discriminant of the request union. */
  datatype TxType = Buy | Sell

  /** `t.type.toUpperCase()` as the CSV export writes it. */
  function TypeTextUpper(t: TxType): string
  {
    match t
    case Buy => "BUY"
    case Sell => "SELL"
  }

  /** Variant-specific fields: a buy carries the channel and account the user
      paid from, a sell carries the payout wallet. */
  datatype Details =
    | BuyFields(paymentMethod: string, paymentNumber: string)
    | SellFields(walletAddress: string)

  /** The stored body of a request document. The document id is not part of
      the body: it is assigned by the store and attached on read. */
  datatype RequestData = RequestData(
    kind: TxType,
    userId: string,
    userEmail: string,
    coinId: string,
    coinSymbol: string,
    coinPriceAtRequest: real,
    amount: real,
    totalPrice: real,
    userScreenshotURL: string,
    adminScreenshotURL: Option<string>,
    status: Status,
    timestamp: int,
    details: Details)

  /** A request as listed: the document id and its body. */
  datatype Request = Request(id: string, data: RequestData)

  /** The type tag agrees with the variant fields. */
  predicate WellTagged(d: RequestData)
  {
    d.kind == Buy <==> d.details.BuyFields?
  }

  function RequestTime(r: Request): int
  {
    r.data.timestamp
  }

  datatype AuditLog = AuditLog(
    actorId: string,
    actorEmail: string,
    actionType: string,
    detail: string,
    timestamp: int)

  function LogTime(l: AuditLog): int
  {
    l.timestamp
  }

  /** The sentinel sender id of every message sent from the admin view. */
  const AdminSender := "admin"

  datatype ChatMessage = ChatMessage(
    requestId: string,
    senderId: string,
    senderEmail: string,
    text: string,
    isAdmin: bool,
    timestamp: int)

  function MessageTime(m: ChatMessage): int
  {
    m.timestamp
  }

  datatype AppNotification = AppNotification(
    id: string,
    userId: string,
    title: string,
    message: string,
    read: bool,
    timestamp: int)

  function NotificationTime(n: AppNotification): int
  {
    n.timestamp
  }

  datatype Coin = Coin(id: string, coinName: string, symbol: string, price: real)

  datatype AdminProfile = AdminProfile(email: string)

  /** The signed-in identity: a uid and an email that may be missing. */
  datatype User = User(uid: string, email: Option<string>)

  /** A file picked in a form; its contents never matter to the model. */
  datatype ProofFile = ProofFile(name: string)

  /** The outcome of the image-hosting upload, which is a network call. */
  datatype UploadResult = Uploaded(url: string) | UploadFailed

  /** The upload helper turns every failure into this one message. */
  const UploadFailureText := "Failed to upload image. Please try again."

  /** JavaScript truthiness of an optional string: present and non-empty. */
  predicate Truthy(s: Option<string>)
  {
    s.Some? && s.value != ""
  }

  /** `s || fallback` for an optional string. */
  function OrElse(s: Option<string>, fallback: string): (r: string)
    ensures Truthy(s) ==> r == s.value
    ensures !Truthy(s) ==> r == fallback
  {
    if Truthy(s) then s.value else fallback
  }

  /** `id.slice(0, 6)`: the short id shown in notifications and headers. */
  function ShortId(id: string): (r: string)
    ensures r <= id
    ensures |r| == if |id| < 6 then |id| else 6
  {
    if |id| < 6 then id else id[..6]
  }
}
